=== FILE: README.md ===
# Gmail delete-only MCP server: batch engine and tool dispatcher

The server exposes two tools over the Model Context Protocol.
`delete_email` permanently deletes one Gmail message.
`batch_delete_emails` deletes many messages and answers with a text summary.

The batch tool runs a generic batch engine, `processBatches`:

- the ids are cut into consecutive chunks of `batchSize`;
- each chunk goes to a bulk operation in one call;
- when that call raises, the chunk error is dropped and each item of the chunk is retried on its own;
- each retry leaves the item either among the successes or among the failures.

This project models that engine, the dispatcher around it, and the batch-size default of 50.

Modules:

- `Wrappers`: `Option` and `Result`.
- `Batches`: the engine as pure functions.
  - `Chunks` is the loop's chunking.
  - `Retry`, `Fallback` and `RunChunk` are one loop iteration.
  - `ProcessBatches` is the whole engine. It returns the `{successes, failures}` report together with the trace of bulk calls, in the order they were made.
  - The bulk operation is an abstract deterministic function. It either returns results or raises an error.
- `BatchProperties`: what the engine promises.
  - the partition into chunks and the chunk count;
  - which calls are made;
  - accounting of every item;
  - attribution of each failure to its own retry;
  - the chunk error being discarded.
- `BatchesLoop`: the compiled JavaScript loop.
  - It has an index that advances by `batchSize`, accumulators that are appended to in place, and an inner loop over a failed chunk.
  - It is proved to compute exactly what `ProcessBatches` computes.
- `Text`: the string operations the summary needs.
  - decimal rendering of a count, and reading it back;
  - `join`, and `split` on one character as its inverse.
- `Tools`: the dispatcher.
  - argument validation;
  - the deletion bulk operation;
  - the summary text and how to read it back;
  - the `Unknown tool:` and `Error:` replies.
- `DispatchProperties`: how each reply relates to what the mail provider did.
  - the accounting of a batch deletion by message id;
  - the default batch size;
  - a worked scenario with a poisoned id.
- `LoopTermination`: the loop header on its own. It shows that a negative `batchSize` with at least one id never ends the loop, and that every size the corrected validation accepts does (see "## Findings").

The mail provider is a parameter.
It is a function from a message id to success or a raised `Error`, with a `name` and a `message`.

Two behaviours of the code to note:

- With `batchSize` 1, the code calls the bulk operation twice for an item whose call fails. There is a chunk call of one item, then the retry. `UnitBatchAttemptsFailuresTwice` states this.
- `z.string()` accepts the empty string as a `messageId`, so the model does too.

## Model

| member | source | states |
|---|---|---|
| Batches.Slice | mcp-server.ts:63 | `items.slice(lo, hi)` for non-negative bounds: its length is the clamped range, it is empty when the range is inverted, and every element is the item at the same offset from `lo` |
| Batches.Chunks | mcp-server.ts:62-63 | the chunks concatenate back to the items; every chunk is non-empty and at most `batchSize` long; all chunks but the last have exactly `batchSize` items |
| Batches.ChunkCountIsCeiling | mcp-server.ts:62 | there are ceil(n / b) chunks, i.e. c with (c - 1) * b < n <= c * b, and no chunk for the empty list |
| Batches.ChunkIsRange | mcp-server.ts:62-63 | the k-th chunk starts below the length and is `items[k*b .. min(k*b + b, n)]` |
| Batches.ChunkIsSlice | mcp-server.ts:62-63 | the k-th chunk is exactly `items.slice(k*b, k*b + b)`, the batch of the k-th loop iteration |
| Batches.Retry | mcp-server.ts:70-75 | one singleton call `fn([item])`: its results are appended on success, and on failure the item with that call's error; specified by `BatchProperties.RetryAccounts` |
| Batches.Fallback | mcp-server.ts:69-76 | the per-item retries of a failed chunk, one per item; specified by `BatchProperties.FallbackRetriesEachItemOnce`, `FallbackAccounts`, `FallbackFailureMultiplicity` and `FallbackIgnoresChunkErrors` |
| Batches.RunChunk | mcp-server.ts:64-77 | one loop iteration: the chunk call, and the fallback when it raises; specified by `BatchProperties.RunChunkTrace` and `RunChunkAccounts` |
| Batches.ProcessBatches | mcp-server.ts:54-81 | the whole engine; specified by `BatchProperties.CallsFollowChunks`, `EveryItemAccountedOnce`, `FailureMultiplicity`, `ChunkErrorIsDiscarded`, `StepAppends` and the rest of `BatchProperties`, and by `BatchesLoop.RunBatches` |
| BatchProperties.FallbackRetriesEachItemOnce | mcp-server.ts:69-76 | the fallback of a chunk makes exactly one singleton call per item, in chunk order, no chunk-level call, and every failure it records is an item of the chunk with the error of its own singleton call |
| BatchProperties.RunChunkTrace | mcp-server.ts:64-77 | one loop iteration makes one chunk-level call on its batch, then retries exactly the batch items when that call fails and nothing otherwise |
| BatchProperties.CallsFollowChunks | mcp-server.ts:54-81 | the chunk-level calls of the whole run are exactly the chunks, in order; the retries are exactly the items of the chunks whose call failed; every failure is an input item carrying its own retry error |
| BatchProperties.EmptyInputMakesNoCall | mcp-server.ts:62 | no bulk call is made if and only if the input is empty, and the empty input gives an empty report |
| BatchProperties.CallCount | mcp-server.ts:62-77 | the number of bulk calls is the number of chunks plus the number of items in failed chunks |
| BatchProperties.BatchSizeBoundary | mcp-server.ts:62-63 | 1..b items make one chunk-level call on the whole list; b + 1 items make two, on the first b items and on the last item |
| BatchProperties.UnitBatchAttemptsFailuresTwice | mcp-server.ts:62-76 | with batch size 1 the number of calls is n plus the number of failures, because a failing item is attempted twice, and every call is on one item |
| BatchProperties.EveryItemCounted | mcp-server.ts:54-81 | when a successful bulk call returns one result per item, successes plus failures number exactly the input items |
| BatchProperties.FallbackCounted | mcp-server.ts:69-76 | under the same contract the fallback of a chunk records exactly one outcome per item |
| BatchProperties.RetryAccounts | mcp-server.ts:70-75 | a retry accounts for its item exactly once, as success or as failure |
| BatchProperties.FallbackAccounts | mcp-server.ts:69-76 | the fallback accounts for exactly the multiset of the chunk's items |
| BatchProperties.RunChunkAccounts | mcp-server.ts:64-77 | one iteration accounts for exactly the multiset of its batch |
| BatchProperties.EveryItemAccountedOnce | mcp-server.ts:54-81 | when each successful result names its item, the items of the successes plus those of the failures are, as a multiset, exactly the input |
| BatchProperties.FallbackFailureMultiplicity | mcp-server.ts:69-76 | an item appears among the fallback's failures as often as it occurs in the chunk when its singleton call fails, and never otherwise |
| BatchProperties.FailureMultiplicity | mcp-server.ts:54-81 | an item appears among the failures as often as it occurs in failed chunks when its singleton call fails, and never otherwise |
| BatchProperties.ChunkErrorIsDiscarded | mcp-server.ts:67-76 | two bulk operations that differ only in the error a failing chunk call raises give the same report and trace |
| BatchProperties.FallbackIgnoresChunkErrors | mcp-server.ts:69-76 | the fallback depends only on the singleton calls |
| BatchProperties.AllSucceedInOrder | mcp-server.ts:65-66 | when every bulk call succeeds, the successes are the per-item results in input order, there are no failures and no retries |
| BatchProperties.BatchSizeIrrelevantWhenAllSucceed | mcp-server.ts:62-66 | when every bulk call succeeds, the report does not depend on the batch size |
| BatchProperties.ConcatAtChunkBoundary | mcp-server.ts:62-78 | running the engine on a prefix of whole chunks and then on the rest is the run on the whole list |
| BatchProperties.StepAppends | mcp-server.ts:62-77 | the iteration at i = k * b extends the run so far by the run of that batch alone; on success its results are appended in order and the failures are untouched; on failure both lists only grow at the end |
| BatchesLoop.RunBatches | mcp-server.js:95-150 | the compiled loop, with its index, in-place accumulators and inner fallback loop, computes exactly the report and call trace of `ProcessBatches` |
| BatchesLoop.RunOneChunk | mcp-server.js:110-142 | one round of the compiled loop, the chunk call and the inner fallback on failure, appends exactly `RunChunk` of the batch |
| BatchesLoop.RunFallback | mcp-server.js:117-138 | the inner loop over a failed batch computes exactly `Fallback` |
| Text.NatToString | mcp-server.ts:136 | `${n}` of a count is a non-empty string of decimal digits with no leading zero unless n is 0 |
| Text.ReadRenderedCount | mcp-server.ts:136 | the value of the rendered digits is the count |
| Text.Join | mcp-server.ts:138 | `parts.join(sep)`; specified by `Text.SplitJoin` |
| Text.SplitJoin | mcp-server.ts:138 | splitting `parts.join(sep)` on `sep` gives the parts back when no part contains `sep` |
| Tools.Strings | mcp-server.ts:49 | `z.array(z.string())` accepts an array if and only if every element is a string, and keeps the strings in order |
| Tools.ParseDelete | mcp-server.ts:44-46 | validation succeeds if and only if the arguments are an object whose `messageId` is a string, and yields that string |
| Tools.ParseBatch | mcp-server.ts:48-51 | validation succeeds if and only if `messageIds` is an array of strings and `batchSize` is absent or a number; an absent `batchSize` becomes 50 |
| Tools.ParseBatchOfBatchJson | mcp-server.ts:48-51 | validation gives back the arguments a client built, and the same arguments without `batchSize` get 50 |
| Tools.EffectiveBatchSize | mcp-server.ts:129 | `batchSize \|\| 50` keeps every non-zero size, replaces 0 by the default 50, and is at least 1 for a non-negative size |
| Tools.DeleteAll | mcp-server.ts:130-133 | the bulk operation succeeds if and only if every delete of the chunk succeeds, then returns one `{ messageId }` per id in order; when it raises, its error is the error of a delete of one of the chunk's ids |
| Tools.DeleteBulk | mcp-server.ts:130-133 | the deletion bulk operation handed to the engine; specified by `DispatchProperties.DeleteBulkIsKeyed`, `DeleteOne` and `FailingIdFailsItsChunks` |
| Tools.BatchRun | mcp-server.ts:127-134 | for a non-negative `batchSize`, the engine run on the deletion bulk operation with batch size `batchSize \|\| 50`; with no ids it makes no call |
| Tools.Header | mcp-server.ts:136 | the first summary line; specified by `Tools.ReadHeaderOfHeader` |
| Tools.FailureLine | mcp-server.ts:138 | the line `- id (message)` of one failure; specified by `Tools.FailureLineReadsBack`, and its place in the reply by `Tools.SummaryReadsBack` |
| Tools.FailureLineReadsBack | mcp-server.ts:138 | when the id holds no `(`, the failure line reads back, through an independent parser, as exactly the failed id and its error message |
| Tools.SummaryNamesEachFailure | mcp-server.ts:136-139 | when no id holds a line break or `(` and no message a line break, the k-th line of the failure list reads back as the id and message of the k-th failure, with one line per failure |
| Tools.Summary | mcp-server.ts:136-139 | the reply text of a batch run; specified by `Tools.SummaryCountsReadBack` and `Tools.SummaryReadsBack` |
| Tools.ErrorText | mcp-server.ts:148 | `err?.message \|\| String(err)` of a raised `Error`; specified by `Tools.ErrorReply` |
| Tools.ReadHeaderOfHeader | mcp-server.ts:136 | the first summary line reads back as the two counts it was built from |
| Tools.SummaryCountsReadBack | mcp-server.ts:136-139 | whatever the ids and messages hold, the first line of the summary reads back as the success count and the failure count |
| Tools.SummaryReadsBack | mcp-server.ts:136-139 | when no id or message holds a line break, the summary reads back as both counts and exactly one `- id (message)` line per failure, in order, with no failure list when there are no failures |
| Tools.CheckedBatchSize | mcp-server.ts:129 | corrected validation of the batch size: refused if and only if it is negative and there is at least one id; an accepted size is at least 1, a positive size is kept, and 0 becomes the default 50 (as does a negative size with no ids, which the loop never uses) |
| Tools.Dispatch | mcp-server.ts:112-149 | the reply starts with `Unknown tool: ` if and only if the name is neither tool, and is then exactly `Unknown tool: ` followed by the name; for `delete_email` it starts with `Error: ` if and only if validation or the delete raised; for `batch_delete_emails` it starts with `Error: ` if and only if validation raised or, in the corrected dispatcher, the batch size is negative with at least one id |
| Tools.ErrorReply | mcp-server.ts:147-148 | the reply to a raised error is `Error: ` followed by the error's message, or by its name when the message is empty (`err?.message \|\| String(err)`), and cannot be mistaken for an unknown-tool reply |
| DispatchProperties.DeleteOne | mcp-server.ts:130-133 | the bulk call on a single id succeeds with `[{ messageId: id }]` exactly when that delete succeeds, and raises that delete's error otherwise |
| DispatchProperties.DeleteBulkIsKeyed | mcp-server.ts:130-133 | a successful bulk call returns one result per id naming that id, in order |
| DispatchProperties.FailingIdFailsItsChunks | mcp-server.ts:130-133 | every chunk that holds an id whose delete fails fails as a whole |
| DispatchProperties.BatchRunAccounts | mcp-server.ts:123-134 | every requested id is reported exactly once, as deleted or as failed; an id is among the failures as often as it was requested when its delete fails and never otherwise; each failure carries its own delete's error |
| DispatchProperties.BatchReplyNamesEachFailure | mcp-server.ts:123-141 | under the same conditions on ids and messages, each line of the reply's failure list reads back as a failed id and the message its own delete raised, one line per failure, in order |
| DispatchProperties.BatchReplyReadsBack | mcp-server.ts:123-141 | the reply's first line gives back the success and failure counts of the run; with no line breaks in ids or messages the whole reply gives back one line per failure |
| DispatchProperties.InvalidArgumentsNeverReachTheProvider | mcp-server.ts:115-148 | arguments that fail validation give an `Error:` reply that does not depend on the provider; so does, in the corrected dispatcher only, a negative batch size with at least one id (the source instead loops forever calling the bulk operation, and reaches the provider only in the first round and only when there are more ids than `\|batchSize\|`) |
| DispatchProperties.UnknownToolIgnoresArguments | mcp-server.ts:144-145 | an unknown tool name gets the reply `Unknown tool: ` followed by the name, whatever the arguments and the provider |
| DispatchProperties.NoIdsAnyBatchSize | mcp-server.ts:123-141 | an empty id list is answered `Batch delete complete. Successes: 0. Failures: 0.` whatever the batch size, a negative one included, as the source's loop never runs |
| DispatchProperties.DeleteEmailReply | mcp-server.ts:117-121 | `delete_email` confirms `Deleted message <id>` when the delete succeeds and otherwise replies `Error: ` with the error's text |
| DispatchProperties.ZeroBatchSizeMeansDefault | mcp-server.ts:124-129 | a batch size of 0, an absent batch size and a batch size of 50 give the same reply |
| DispatchProperties.PoisonIdIsIsolated | mcp-server.ts:54-81 | for ids a, b, poison, d in chunks of two with only `poison` failing, the run has successes a, b, d, the one failure `poison`, and calls [a,b], [poison,d], [poison], [d] |
| LoopTermination.LoopRounds | mcp-server.ts:62 | the number of rounds of the loop header never exceeds the rounds allowed |
| LoopTermination.NegativeStepNeverExits | mcp-server.ts:62 | once the index is below the bound, a negative step keeps the loop running for every number of rounds allowed |
| LoopTermination.NegativeBatchSizeHangs | mcp-server.ts:48-62 | `{ messageIds: ["a"], batchSize: -1 }` passes validation, keeps -1 through `\|\| 50`, and its loop never ends |
| LoopTermination.PositiveStepExits | mcp-server.ts:62 | with a step of at least 1 the loop ends, after at most n - i rounds |
| LoopTermination.LoopRunsOncePerChunk | mcp-server.ts:62-63 | with a step of at least 1 the loop runs exactly once per chunk |
| LoopTermination.NegativeBatchSizeHangsOnAnyIds | mcp-server.ts:50-62 | with at least one id, every negative batch size keeps its sign through `\|\| 50` and the loop never ends; these are exactly the arguments the corrected validation refuses |
| LoopTermination.AcceptedBatchSizeEndsTheLoop | mcp-server.ts:62 | every batch size the corrected validation accepts ends the loop, after one round per chunk and at most n rounds |
| DispatchProperties.PoisonIdReply | mcp-server.ts:123-141 | that request is answered, word for word, `Batch delete complete. Successes: 3. Failures: 1.` then `Failed IDs:` then `- poison (Not Found)` |

## Left out

- Credential loading and OAuth setup (`loadAndAuth`, mcp-server.ts:23-41): file and network I/O.
- The MCP `Server`, its stdio transport and the `ListTools` handler (mcp-server.ts:84-110, 152-153): I/O and static metadata.
- The Gmail API. It is a stateless function from an id to success or error, so the model does not capture that a delete is a side effect. For example, an id deleted during a failed chunk call may fail differently on its retry: with the real API it most likely gets a 404 then. So the success of `d` in `DispatchProperties.PoisonIdIsIsolated`, and the "never otherwise" clause of `DispatchProperties.BatchRunAccounts`, hold only for a stateless provider.
- Concurrency of `Promise.all`.
  - The fallback retries are taken left to right, so the order within one chunk's contributions is the model's order. Properties about the fallback are stated only up to multiset, or per item.
  - When several deletes of a chunk fail, `DeleteAll` raises the error of the first one in chunk order, whereas the source raises whichever rejects first. `ChunkErrorIsDiscarded` shows the engine's result does not depend on that choice.
- The exact text of zod's validation errors. `Tools.Invalid` gives a `ZodError` with a short message of its own.
- Values thrown that are not `Error` objects. Every raised error is a `Fault(name, message)`, and `String(err)` of an `Error` with an empty message is its name.
- JSON numbers are integers only, so a fractional `batchSize` and `NaN` are not modelled. Arguments that are `undefined` cannot be represented; `null` is `Tools.JNull` and is rejected by validation as zod does.
- Tools.Dispatch: a negative `batchSize` with at least one id gets an `Error:` reply from the corrected validation `Tools.CheckedBatchSize`. The source instead loops forever calling the bulk operation. It reaches the provider only in the first round, and only when there are more ids than `|batchSize|`: for `["a", "b"]` and -1 it deletes `["a"]`; for `["a"]` and -1 every batch is empty and it deletes nothing. A function cannot model a request that never ends. See "## Findings". With no ids the model answers as the source does, the empty summary (`DispatchProperties.NoIdsAnyBatchSize`).
- BatchProperties.EveryItemCounted: assumes the bulk operation returns one result per item on success. The engine does not check this; a caller that breaks it gets whatever it returned.
- The `__awaiter`/`__generator` state machine of the compiled file: `BatchesLoop` follows its control flow (the labels of mcp-server.js:100-146), not its encoding.

## Findings

| source | as written | input that shows it | evidently intended | confidence | as-written member | corrected member |
|---|---|---|---|---|---|---|
| mcp-server.ts:50 | `z.number()` accepts a negative `batchSize`. `batchSize \|\| 50` replaces only 0. With at least one id, the loop `i += batchSize` (mcp-server.ts:62) then moves the index away from `items.length`, so the handler never returns and keeps calling the bulk operation | `{ "messageIds": ["a"], "batchSize": -1 }` | a batch size is a count of messages per batch, so a negative one should be refused or replaced before the loop | high; not executed | LoopTermination.NegativeBatchSizeHangs | Tools.CheckedBatchSize |

=== FILE: batch_properties.dfy ===
/** Properties of the batch execution engine: how many bulk calls it makes,
    how every item is accounted for, and how a failed chunk is isolated. */
module BatchProperties {
  import opened Wrappers
  import opened Batches

  /** The engine's result contract on the bulk operation: a successful call
      returns exactly one result per item of its argument. */
  ghost predicate OnePerItem<T(!new), R, E>(bulk: BulkOp<T, R, E>)
  {
    forall c :: bulk(c).Success? ==> |bulk(c).value| == |c|
  }

  /** A stronger form of the result contract: a successful call returns, in
      order, one result per item from which `key` recovers that item. */
  ghost predicate Keyed<T(!new), R, E>(bulk: BulkOp<T, R, E>, key: R -> T)
  {
    forall c :: bulk(c).Success? ==> MapSeq(key, bulk(c).value) == c
  }

  /** Two bulk operations that agree on everything except the error a
      multi-item call raises. */
  ghost predicate AgreeUpToChunkErrors<T(!new), R, E>(bulk1: BulkOp<T, R, E>, bulk2: BulkOp<T, R, E>)
  {
    && (forall c :: bulk1(c).Success? <==> bulk2(c).Success?)
    && (forall c :: bulk1(c).Success? ==> bulk1(c).value == bulk2(c).value)
    && (forall x :: bulk1([x]) == bulk2([x]))
  }

  /** Every call of a trace is either a chunk-level call or a retry. */
  lemma {:induction false} TraceSplits<T>(calls: seq<Call<T>>)
    ensures |calls| == |ChunkArgs(calls)| + |RetryItems(calls)|
    decreases |calls|
  {
    if |calls| > 0 {
      TraceSplits(calls[1..]);
    }
  }

  /** Every failure record names an item of `within` and carries the error
      that the item's own singleton call `fn([item])` raises. */
  ghost predicate Attributed<T, R, E>(failures: seq<Failed<T, E>>, within: seq<T>, bulk: BulkOp<T, R, E>)
  {
    forall k :: 0 <= k < |failures| ==>
      failures[k].item in within && bulk([failures[k].item]) == Failure(failures[k].error)
  }

  lemma AttributedConcat<T, R, E>(f1: seq<Failed<T, E>>, f2: seq<Failed<T, E>>,
                                  p1: seq<T>, p2: seq<T>, bulk: BulkOp<T, R, E>)
    requires Attributed(f1, p1, bulk) && Attributed(f2, p2, bulk)
    ensures Attributed(f1 + f2, p1 + p2, bulk)
  {
    forall k | 0 <= k < |f1 + f2|
      ensures (f1 + f2)[k].item in p1 + p2 && bulk([(f1 + f2)[k].item]) == Failure((f1 + f2)[k].error)
    {
      if k < |f1| {
        assert (f1 + f2)[k] == f1[k];
      } else {
        assert (f1 + f2)[k] == f2[k - |f1|];
      }
    }
  }

  /** The fallback retries every item of the chunk once, in order, and
      records a failure only with the error of that item's own retry. */
  lemma {:induction false} FallbackRetriesEachItemOnce<T, R, E>(chunk: seq<T>, bulk: BulkOp<T, R, E>)
    ensures RetryItems(Fallback(chunk, bulk).calls) == chunk
    ensures ChunkArgs(Fallback(chunk, bulk).calls) == []
    ensures Attributed(Fallback(chunk, bulk).report.failures, chunk, bulk)
    decreases |chunk|
  {
    if |chunk| > 0 {
      var head := Retry(chunk[0], bulk);
      var tail := Fallback(chunk[1..], bulk);
      FallbackRetriesEachItemOnce(chunk[1..], bulk);
      assert chunk == [chunk[0]] + chunk[1..];
      assert Fallback(chunk, bulk) == head.Then(tail);
      assert RetryItems(head.calls + tail.calls) == chunk && ChunkArgs(head.calls + tail.calls) == [] by {
        ArgsOfConcat(head.calls, tail.calls);
        assert head.calls[1..] == [];
      }
      assert Attributed(head.report.failures + tail.report.failures, chunk, bulk) by {
        assert Attributed(head.report.failures, [chunk[0]], bulk);
        AttributedConcat(head.report.failures, tail.report.failures, [chunk[0]], chunk[1..], bulk);
      }
    }
  }

  /** One chunk makes one chunk-level call with the chunk itself, and retries
      its items exactly when that call fails. */
  lemma RunChunkTrace<T, R, E>(chunk: seq<T>, bulk: BulkOp<T, R, E>)
    ensures ChunkArgs(RunChunk(chunk, bulk).calls) == [chunk]
    ensures RetryItems(RunChunk(chunk, bulk).calls) == if bulk(chunk).Failure? then chunk else []
    ensures Attributed(RunChunk(chunk, bulk).report.failures, chunk, bulk)
  {
    var call: Execution<T, R, E> := Execution(Report([], []), [ChunkCall(chunk)]);
    assert ChunkArgs(call.calls) == [chunk] && RetryItems(call.calls) == [] by {
      assert call.calls[1..] == [];
    }
    if bulk(chunk).Failure? {
      FallbackRetriesEachItemOnce(chunk, bulk);
      ArgsOfConcat(call.calls, Fallback(chunk, bulk).calls);
    }
  }

  /** The chunk-level calls are exactly the chunks of the partition, in
      order; the retries are exactly the items of the chunks whose bulk call
      failed, each retried once; and every failure record names an input item
      and carries the error its own singleton call raised, never the
      chunk-level error. */
  lemma {:induction false} CallsFollowChunks<T, R, E>(items: seq<T>, b: nat, bulk: BulkOp<T, R, E>)
    requires b >= 1
    ensures ChunkArgs(ProcessBatches(items, b, bulk).calls) == Chunks(items, b)
    ensures RetryItems(ProcessBatches(items, b, bulk).calls) == FailedChunkItems(Chunks(items, b), bulk)
    ensures Attributed(ProcessBatches(items, b, bulk).report.failures, items, bulk)
    decreases |items|
  {
    if |items| > 0 {
      var m := Min(b, |items|);
      var first := RunChunk(items[..m], bulk);
      var rest := ProcessBatches(items[m..], b, bulk);
      CallsFollowChunks(items[m..], b, bulk);
      RunChunkTrace(items[..m], bulk);
      ArgsOfConcat(first.calls, rest.calls);
      var cs := Chunks(items, b);
      assert cs == [items[..m]] + Chunks(items[m..], b);
      assert cs[1..] == Chunks(items[m..], b);
      AttributedConcat(first.report.failures, rest.report.failures, items[..m], items[m..], bulk);
      assert items == items[..m] + items[m..];
    }
  }

  /** Empty input gives an empty report and no bulk call at all; any other
      input makes at least one call. */
  lemma EmptyInputMakesNoCall<T, R, E>(items: seq<T>, b: nat, bulk: BulkOp<T, R, E>)
    requires b >= 1
    ensures ProcessBatches(items, b, bulk).calls == [] <==> items == []
    ensures items == [] ==> ProcessBatches(items, b, bulk).report == Report([], [])
  {
    var x := ProcessBatches(items, b, bulk);
    if items != [] {
      assert Chunks(items, b) != [];
      assert ChunkArgs(x.calls) != [];
    }
  }

  /** The engine makes one chunk-level call per chunk (ceil(n / b) of them,
      by the contract of `Chunks`) plus one singleton call per item of every
      chunk whose bulk call failed. */
  lemma CallCount<T, R, E>(items: seq<T>, b: nat, bulk: BulkOp<T, R, E>)
    requires b >= 1
    ensures |ProcessBatches(items, b, bulk).calls|
            == |Chunks(items, b)| + |FailedChunkItems(Chunks(items, b), bulk)|
  {
    TraceSplits(ProcessBatches(items, b, bulk).calls);
    CallsFollowChunks(items, b, bulk);
  }

  /** Batch-size boundary: up to `b` items give exactly one chunk-level call,
      with the whole list; `b + 1` items give exactly two. */
  lemma BatchSizeBoundary<T, R, E>(items: seq<T>, b: nat, bulk: BulkOp<T, R, E>)
    requires b >= 1
    ensures 0 < |items| <= b ==> ChunkArgs(ProcessBatches(items, b, bulk).calls) == [items]
    ensures |items| == b + 1 ==>
              ChunkArgs(ProcessBatches(items, b, bulk).calls) == [items[..b], [items[b]]]
  {
    CallsFollowChunks(items, b, bulk);
    if 0 < |items| <= b {
      assert items[..|items|] == items;
      assert Chunks(items, b) == [items] + Chunks(items[|items|..], b);
    }
    if |items| == b + 1 {
      var rest := items[b..];
      assert rest == [items[b]];
      assert Chunks(rest, b) == [rest] + Chunks(rest[1..], b);
    }
  }

  /** At batch size 1 the singleton chunk call and the fallback retry are the
      same call `fn([item])`: every item that fails is attempted twice. */
  lemma {:induction false} UnitBatchAttemptsFailuresTwice<T, R, E>(items: seq<T>, bulk: BulkOp<T, R, E>)
    ensures |ProcessBatches(items, 1, bulk).calls|
            == |items| + |ProcessBatches(items, 1, bulk).report.failures|
    ensures forall k :: 0 <= k < |ProcessBatches(items, 1, bulk).calls| ==>
              |ProcessBatches(items, 1, bulk).calls[k].Arg()| == 1
    decreases |items|
  {
    if |items| > 0 {
      var chunk := items[..1];
      assert chunk == [items[0]];
      var first := RunChunk(chunk, bulk);
      var rest := ProcessBatches(items[1..], 1, bulk);
      UnitBatchAttemptsFailuresTwice(items[1..], bulk);
      assert ProcessBatches(items, 1, bulk) == first.Then(rest);
      if bulk(chunk).Failure? {
        assert Fallback(chunk, bulk) == Retry(items[0], bulk).Then(Fallback(chunk[1..], bulk));
        assert chunk[1..] == [];
        assert |first.calls| == 2 && |first.report.failures| == 1;
      }
      forall k | 0 <= k < |first.calls + rest.calls|
        ensures |(first.calls + rest.calls)[k].Arg()| == 1
      {
        if k >= |first.calls| {
          assert (first.calls + rest.calls)[k] == rest.calls[k - |first.calls|];
        }
      }
    }
  }

  /** Accounting, in counts: with a bulk operation that honours the result
      contract, every item yields exactly one success or one failure. */
  lemma {:induction false} EveryItemCounted<T(!new), R, E>(items: seq<T>, b: nat, bulk: BulkOp<T, R, E>)
    requires b >= 1
    requires OnePerItem(bulk)
    ensures |ProcessBatches(items, b, bulk).report.successes|
            + |ProcessBatches(items, b, bulk).report.failures| == |items|
    decreases |items|
  {
    if |items| > 0 {
      var m := Min(b, |items|);
      EveryItemCounted(items[m..], b, bulk);
      if bulk(items[..m]).Failure? {
        FallbackCounted(items[..m], bulk);
      }
    }
  }

  lemma {:induction false} FallbackCounted<T(!new), R, E>(chunk: seq<T>, bulk: BulkOp<T, R, E>)
    requires OnePerItem(bulk)
    ensures |Fallback(chunk, bulk).report.successes| + |Fallback(chunk, bulk).report.failures| == |chunk|
    decreases |chunk|
  {
    if |chunk| > 0 {
      FallbackCounted(chunk[1..], bulk);
      if bulk([chunk[0]]).Success? {
        assert |bulk([chunk[0]]).value| == |[chunk[0]]|;
      }
    }
  }

  lemma MapSeqConcat<A, B>(f: A -> B, a: seq<A>, c: seq<A>)
    ensures MapSeq(f, a + c) == MapSeq(f, a) + MapSeq(f, c)
  {
    assert forall k :: 0 <= k < |a + c| ==> MapSeq(f, a + c)[k] == (MapSeq(f, a) + MapSeq(f, c))[k];
  }

  lemma {:induction false} FailedItemsConcat<T, E>(f1: seq<Failed<T, E>>, f2: seq<Failed<T, E>>)
    ensures FailedItems(f1 + f2) == FailedItems(f1) + FailedItems(f2)
    decreases |f1|
  {
    if |f1| > 0 {
      assert (f1 + f2)[1..] == f1[1..] + f2;
      FailedItemsConcat(f1[1..], f2);
    } else {
      assert f1 + f2 == f2;
    }
  }

  /** The keys of the successes and the items of the failures of `x`,
      together, as a multiset. */
  ghost function Outcomes<T, R, E>(x: Execution<T, R, E>, key: R -> T): multiset<T>
  {
    multiset(MapSeq(key, x.report.successes)) + multiset(FailedItems(x.report.failures))
  }

  lemma OutcomesOfThen<T, R, E>(x: Execution<T, R, E>, y: Execution<T, R, E>, key: R -> T)
    ensures Outcomes(x.Then(y), key) == Outcomes(x, key) + Outcomes(y, key)
  {
    MapSeqConcat(key, x.report.successes, y.report.successes);
    FailedItemsConcat(x.report.failures, y.report.failures);
  }

  lemma RetryAccounts<T(!new), R, E>(item: T, bulk: BulkOp<T, R, E>, key: R -> T)
    requires Keyed(bulk, key)
    ensures Outcomes(Retry(item, bulk), key) == multiset{item}
  {
    var x := Retry(item, bulk);
    match bulk([item])
    case Success(rs) =>
      assert MapSeq(key, rs) == [item];
      assert x.report.failures == [];
      assert FailedItems(x.report.failures) == [];
    case Failure(e) =>
      assert x.report.successes == [];
      assert x.report.failures == [Failed(item, e)];
      assert FailedItems(x.report.failures) == [item] + FailedItems(x.report.failures[1..]);
      assert x.report.failures[1..] == [];
  }

  lemma {:induction false} FallbackAccounts<T(!new), R, E>(chunk: seq<T>, bulk: BulkOp<T, R, E>, key: R -> T)
    requires Keyed(bulk, key)
    ensures Outcomes(Fallback(chunk, bulk), key) == multiset(chunk)
    decreases |chunk|
  {
    if |chunk| > 0 {
      var head := Retry(chunk[0], bulk);
      var tail := Fallback(chunk[1..], bulk);
      assert Fallback(chunk, bulk) == head.Then(tail);
      FallbackAccounts(chunk[1..], bulk, key);
      RetryAccounts(chunk[0], bulk, key);
      OutcomesOfThen(head, tail, key);
      assert chunk == [chunk[0]] + chunk[1..];
      assert multiset(chunk) == multiset{chunk[0]} + multiset(chunk[1..]);
    }
  }

  lemma RunChunkAccounts<T(!new), R, E>(chunk: seq<T>, bulk: BulkOp<T, R, E>, key: R -> T)
    requires Keyed(bulk, key)
    ensures Outcomes(RunChunk(chunk, bulk), key) == multiset(chunk)
  {
    match bulk(chunk)
    case Success(rs) =>
      assert MapSeq(key, rs) == chunk;
      assert FailedItems(RunChunk(chunk, bulk).report.failures) == [];
    case Failure(_) =>
      var call: Execution<T, R, E> := Execution(Report([], []), [ChunkCall(chunk)]);
      assert RunChunk(chunk, bulk) == call.Then(Fallback(chunk, bulk));
      FallbackAccounts(chunk, bulk, key);
      OutcomesOfThen(call, Fallback(chunk, bulk), key);
      assert FailedItems(call.report.failures) == [];
      assert MapSeq(key, call.report.successes) == [];
  }

  /** Accounting, in identities: with a bulk operation whose results name
      their items, the success keys and the failed items together are exactly
      the input as a multiset. Duplicates are accounted for one by one. */
  lemma {:induction false} EveryItemAccountedOnce<T(!new), R, E>(items: seq<T>, b: nat, bulk: BulkOp<T, R, E>, key: R -> T)
    requires b >= 1
    requires Keyed(bulk, key)
    ensures Outcomes(ProcessBatches(items, b, bulk), key) == multiset(items)
    decreases |items|
  {
    if |items| > 0 {
      var m := Min(b, |items|);
      var chunk := items[..m];
      var first := RunChunk(chunk, bulk);
      var rest := ProcessBatches(items[m..], b, bulk);
      calc {
        Outcomes(ProcessBatches(items, b, bulk), key);
        Outcomes(first.Then(rest), key);
        { OutcomesOfThen(first, rest, key); }
        Outcomes(first, key) + Outcomes(rest, key);
        { RunChunkAccounts(chunk, bulk, key); EveryItemAccountedOnce(items[m..], b, bulk, key); }
        multiset(chunk) + multiset(items[m..]);
        { assert items == chunk + items[m..]; }
        multiset(items);
      }
    }
  }

  lemma {:induction false} FallbackFailureMultiplicity<T, R, E>(chunk: seq<T>, bulk: BulkOp<T, R, E>, x: T)
    ensures multiset(FailedItems(Fallback(chunk, bulk).report.failures))[x]
            == if bulk([x]).Failure? then multiset(chunk)[x] else 0
    decreases |chunk|
  {
    if |chunk| > 0 {
      var head := Retry(chunk[0], bulk);
      var tail := Fallback(chunk[1..], bulk);
      FallbackFailureMultiplicity(chunk[1..], bulk, x);
      FailedItemsConcat(head.report.failures, tail.report.failures);
      assert chunk == [chunk[0]] + chunk[1..];
    }
  }

  /** Failure isolation: an item is recorded as failed exactly as many times
      as it occurs in chunks whose bulk call failed, if its own singleton call
      fails, and never otherwise. A successful chunk records no failure, and
      the chunk-level error never appears. */
  lemma {:induction false} FailureMultiplicity<T, R, E>(items: seq<T>, b: nat, bulk: BulkOp<T, R, E>, x: T)
    requires b >= 1
    ensures multiset(FailedItems(ProcessBatches(items, b, bulk).report.failures))[x]
            == if bulk([x]).Failure? then multiset(FailedChunkItems(Chunks(items, b), bulk))[x] else 0
    decreases |items|
  {
    if |items| > 0 {
      var m := Min(b, |items|);
      var chunk := items[..m];
      var first := RunChunk(chunk, bulk);
      var rest := ProcessBatches(items[m..], b, bulk);
      FailureMultiplicity(items[m..], b, bulk, x);
      FailedItemsConcat(first.report.failures, rest.report.failures);
      var cs := Chunks(items, b);
      assert cs == [chunk] + Chunks(items[m..], b);
      assert cs[1..] == Chunks(items[m..], b);
      if bulk(chunk).Failure? {
        FallbackFailureMultiplicity(chunk, bulk, x);
        assert first.report.failures == Fallback(chunk, bulk).report.failures;
      } else {
        assert first.report.failures == [];
      }
    }
  }

  /** The chunk-level error is thrown away: two bulk operations that differ
      only in the errors of their failing calls on multi-item chunks give the
      same report and make the same calls. */
  lemma {:induction false} ChunkErrorIsDiscarded<T(!new), R, E>(items: seq<T>, b: nat,
                                                         bulk1: BulkOp<T, R, E>, bulk2: BulkOp<T, R, E>)
    requires b >= 1
    requires AgreeUpToChunkErrors(bulk1, bulk2)
    ensures ProcessBatches(items, b, bulk1) == ProcessBatches(items, b, bulk2)
    decreases |items|
  {
    if |items| > 0 {
      var m := Min(b, |items|);
      ChunkErrorIsDiscarded(items[m..], b, bulk1, bulk2);
      FallbackIgnoresChunkErrors(items[..m], bulk1, bulk2);
      assert RunChunk(items[..m], bulk1) == RunChunk(items[..m], bulk2);
    }
  }

  lemma {:induction false} FallbackIgnoresChunkErrors<T(!new), R, E>(chunk: seq<T>,
                                                               bulk1: BulkOp<T, R, E>, bulk2: BulkOp<T, R, E>)
    requires forall x :: bulk1([x]) == bulk2([x])
    ensures Fallback(chunk, bulk1) == Fallback(chunk, bulk2)
    decreases |chunk|
  {
    if |chunk| > 0 {
      FallbackIgnoresChunkErrors(chunk[1..], bulk1, bulk2);
      assert Retry(chunk[0], bulk1) == Retry(chunk[0], bulk2);
    }
  }

  /** When every bulk call succeeds with one result per item, no fallback
      happens: the successes are the results of the items in input order, there
      are no failures, and there is no retry call. The report
      therefore does not depend on the batch size. */
  lemma {:induction false} AllSucceedInOrder<T(!new), R, E>(items: seq<T>, b: nat, bulk: BulkOp<T, R, E>, f: T -> R)
    requires b >= 1
    requires forall c :: bulk(c) == Success(MapSeq(f, c))
    ensures ProcessBatches(items, b, bulk).report == Report(MapSeq(f, items), [])
    ensures RetryItems(ProcessBatches(items, b, bulk).calls) == []
    decreases |items|
  {
    if |items| > 0 {
      var m := Min(b, |items|);
      var chunk := items[..m];
      var rest := ProcessBatches(items[m..], b, bulk);
      assert bulk(chunk) == Success(MapSeq(f, chunk));
      var first := RunChunk(chunk, bulk);
      assert first == Execution(Report(MapSeq(f, chunk), []), [ChunkCall(chunk)]);
      assert ProcessBatches(items, b, bulk) == first.Then(rest);
      AllSucceedInOrder(items[m..], b, bulk, f);
      MapSeqConcat(f, chunk, items[m..]);
      assert items == chunk + items[m..];
      ArgsOfConcat(first.calls, rest.calls);
      assert RetryItems(first.calls) == RetryItems(first.calls[1..]);
    }
  }

  /** Batch size 1 and batch size `n` give identical successes when every
      call succeeds. */
  lemma BatchSizeIrrelevantWhenAllSucceed<T(!new), R, E>(items: seq<T>, b1: nat, b2: nat,
                                                    bulk: BulkOp<T, R, E>, f: T -> R)
    requires b1 >= 1 && b2 >= 1
    requires forall c :: bulk(c) == Success(MapSeq(f, c))
    ensures ProcessBatches(items, b1, bulk).report == ProcessBatches(items, b2, bulk).report
  {
    AllSucceedInOrder(items, b1, bulk, f);
    AllSucceedInOrder(items, b2, bulk, f);
  }

  /** The first step of the engine on a list of more than `b` items. */
  lemma UnfoldFullChunk<T, R, E>(items: seq<T>, b: nat, bulk: BulkOp<T, R, E>)
    requires 1 <= b <= |items|
    ensures ProcessBatches(items, b, bulk)
            == RunChunk(items[..b], bulk).Then(ProcessBatches(items[b..], b, bulk))
  {
  }

  lemma SplitConcat<T>(a: seq<T>, c: seq<T>, b: nat)
    requires b <= |a|
    ensures (a + c)[..b] == a[..b]
    ensures (a + c)[b..] == a[b..] + c
  {
  }

  /** The engine run on a prefix of whole chunks, then on the remainder, is
      the engine run on the whole list. */
  lemma {:induction false} ConcatAtChunkBoundary<T, R, E>(a: seq<T>, c: seq<T>, b: nat, k: nat, bulk: BulkOp<T, R, E>)
    requires b >= 1
    requires |a| == k * b
    ensures ProcessBatches(a + c, b, bulk) == ProcessBatches(a, b, bulk).Then(ProcessBatches(c, b, bulk))
    decreases k
  {
    if k == 0 {
      assert a == [];
      assert a + c == c;
    } else {
      MulSucc(k - 1, b);
      MulNonneg(k - 1, b);
      var a' := a[b..];
      assert |a'| == (k - 1) * b;
      ConcatAtChunkBoundary(a', c, b, k - 1, bulk);
      SplitConcat(a, c, b);
      UnfoldFullChunk(a + c, b, bulk);
      UnfoldFullChunk(a, b, bulk);
      ThenAssoc(RunChunk(a[..b], bulk), ProcessBatches(a', b, bulk), ProcessBatches(c, b, bulk));
    }
  }

  /** One iteration of the loop, seen from the accumulators: at `i = k * b`
      the chunk `items.slice(i, i + b)` extends the execution so far by the
      execution of that chunk alone. When its bulk call succeeds its results
      are appended, in order, to the successes and the failures are untouched;
      when it fails, the successes and the failures only grow at the end. */
  lemma StepAppends<T, R, E>(items: seq<T>, b: nat, k: nat, i: nat, bulk: BulkOp<T, R, E>)
    requires b >= 1
    requires i == k * b && i < |items|
    ensures var chunk := Slice(items, i, i + b);
            var before := ProcessBatches(items[..i], b, bulk);
            var after := ProcessBatches(items[..i + |chunk|], b, bulk);
            && after == before.Then(RunChunk(chunk, bulk))
            && (bulk(chunk).Success? ==>
                  after.report == Report(before.report.successes + bulk(chunk).value,
                                         before.report.failures))
            && (bulk(chunk).Failure? ==>
                  && after.report.successes[..|before.report.successes|] == before.report.successes
                  && after.report.failures[..|before.report.failures|] == before.report.failures)
  {
    var chunk := Slice(items, i, i + b);
    SliceIsClamped(items, i, b);
    var j := i + |chunk|;
    assert chunk == items[i..j];
    PrefixExtends(items, i, j);
    var pre := items[..i];
    assert items[..j] == pre + chunk;
    ConcatAtChunkBoundary(pre, chunk, b, k, bulk);
    SingleChunk(chunk, b, bulk);
    var before := ProcessBatches(pre, b, bulk);
    calc {
      ProcessBatches(items[..j], b, bulk);
      ProcessBatches(pre + chunk, b, bulk);
      before.Then(ProcessBatches(chunk, b, bulk));
      before.Then(RunChunk(chunk, bulk));
    }
  }

  lemma PrefixExtends<T>(items: seq<T>, i: nat, j: nat)
    requires i <= j <= |items|
    ensures items[..j] == items[..i] + items[i..j]
  {
  }

  /** A list of at most `b` items is one chunk. */
  lemma SingleChunk<T, R, E>(chunk: seq<T>, b: nat, bulk: BulkOp<T, R, E>)
    requires 1 <= |chunk| <= b
    ensures ProcessBatches(chunk, b, bulk) == RunChunk(chunk, bulk)
  {
    assert chunk[..|chunk|] == chunk;
    assert chunk[|chunk|..] == [];
    var x := RunChunk(chunk, bulk);
    assert x.Then(Idle()) == x by {
      assert x.report.successes + [] == x.report.successes;
      assert x.report.failures + [] == x.report.failures;
      assert x.calls + [] == x.calls;
    }
  }
}

=== FILE: batches.dfy ===
/** The batch execution engine `processBatches`: the items are cut into
    consecutive chunks of `batchSize`, each chunk is handed to a caller-supplied
    bulk operation, and a chunk whose bulk call fails is retried item by item so
    that every item ends up either among the successes or among the failures.

    The bulk operation is an abstract, deterministic oracle. The engine is a
    pure function that also returns the trace of bulk calls it made, so that
    the number and the arguments of those calls can be stated. */
module Batches {
  import opened Wrappers

  /** A caller-supplied bulk operation: one call per chunk, raising an error or
      returning results. */
  type BulkOp<!T, R, E> = seq<T> -> Result<seq<R>, E>

  /** One invocation of the bulk operation made by the engine. */
  datatype Call<T> = ChunkCall(batch: seq<T>) | RetryCall(item: T)
  {
    /** The sequence the bulk operation was called with. */
    function Arg(): seq<T>
    {
      match this
      case ChunkCall(batch) => batch
      case RetryCall(item) => [item]
    }
  }

  /** A `{item, error}` record of the failures list. */
  datatype Failed<T, E> = Failed(item: T, error: E)

  /** The `{successes, failures}` object the engine returns. */
  datatype Report<T, R, E> = Report(successes: seq<R>, failures: seq<Failed<T, E>>)

  /** A report together with the bulk calls, in the order they were made. */
  datatype Execution<T, R, E> = Execution(report: Report<T, R, E>, calls: seq<Call<T>>)
  {
    /** This execution followed by `next`: both accumulators and the call
        trace are appended to. */
    function Then(next: Execution<T, R, E>): Execution<T, R, E>
    {
      Execution(Report(report.successes + next.report.successes,
                       report.failures + next.report.failures),
                calls + next.calls)
    }
  }

  /** An execution that made no call and recorded nothing. */
  function Idle<T, R, E>(): Execution<T, R, E>
  {
    Execution(Report([], []), [])
  }

  function Min(a: int, b: int): int
  {
    if a <= b then a else b
  }

  /** `items.slice(lo, hi)` for non-negative bounds: both bounds are clamped
      to the length, and an inverted range gives the empty sequence. */
  function Slice<T>(items: seq<T>, lo: nat, hi: nat): (s: seq<T>)
    ensures lo <= hi ==> |s| == Min(hi, |items|) - Min(lo, |items|)
    ensures hi <= lo ==> s == []
    ensures forall k :: 0 <= k < |s| ==> lo + k < |items| && s[k] == items[lo + k]
  {
    var a := Min(lo, |items|);
    var b := Min(hi, |items|);
    if a <= b then items[a..b] else []
  }

  function Flatten<T>(ss: seq<seq<T>>): seq<T>
  {
    if |ss| == 0 then [] else ss[0] + Flatten(ss[1..])
  }

  function MapSeq<A, B>(f: A -> B, s: seq<A>): (r: seq<B>)
    ensures |r| == |s|
    ensures forall k :: 0 <= k < |s| ==> r[k] == f(s[k])
  {
    seq(|s|, k requires 0 <= k < |s| => f(s[k]))
  }

  /** The item of every failure record, in order. */
  function FailedItems<T, E>(failures: seq<Failed<T, E>>): seq<T>
  {
    if |failures| == 0 then [] else [failures[0].item] + FailedItems(failures[1..])
  }

  /** The arguments of the chunk-level calls of a trace, in order. */
  function ChunkArgs<T>(calls: seq<Call<T>>): seq<seq<T>>
  {
    if |calls| == 0 then []
    else (if calls[0].ChunkCall? then [calls[0].batch] else []) + ChunkArgs(calls[1..])
  }

  /** The items of the per-item retry calls of a trace, in order. */
  function RetryItems<T>(calls: seq<Call<T>>): seq<T>
  {
    if |calls| == 0 then []
    else (if calls[0].RetryCall? then [calls[0].item] else []) + RetryItems(calls[1..])
  }

  /** The items of those chunks whose bulk call fails, in order. */
  function FailedChunkItems<T, R, E>(chunks: seq<seq<T>>, bulk: BulkOp<T, R, E>): seq<T>
  {
    if |chunks| == 0 then []
    else (if bulk(chunks[0]).Failure? then chunks[0] else []) + FailedChunkItems(chunks[1..], bulk)
  }

  /** The consecutive chunks the loop `for (i = 0; i < n; i += b)` cuts with
      `items.slice(i, i + b)`: they partition the items, all have length `b`
      except the last, which is shorter but never empty. */
  function Chunks<T>(items: seq<T>, b: nat): (cs: seq<seq<T>>)
    requires b >= 1
    ensures Flatten(cs) == items
    ensures forall k :: 0 <= k < |cs| ==> 0 < |cs[k]| <= b
    ensures forall k :: 0 <= k < |cs| - 1 ==> |cs[k]| == b
    decreases |items|
  {
    if |items| == 0 then []
    else
      var m := Min(b, |items|);
      var rest := Chunks(items[m..], b);
      assert items == items[..m] + items[m..];
      [items[..m]] + rest
  }

  lemma MulSucc(c: int, b: int)
    ensures (c + 1) * b == c * b + b
    ensures (c - 1) * b == c * b - b
  {
  }

  /** There are ceil(n / b) chunks: the count c with (c - 1) * b < n <= c * b,
      and none for the empty list. */
  lemma {:induction false} ChunkCountIsCeiling<T>(items: seq<T>, b: nat)
    requires b >= 1
    ensures |items| == 0 ==> Chunks(items, b) == []
    ensures |items| > 0 ==> (|Chunks(items, b)| - 1) * b < |items| <= |Chunks(items, b)| * b
    decreases |items|
  {
    if |items| > 0 {
      var m := Min(b, |items|);
      ChunkCountIsCeiling(items[m..], b);
      MulSucc(|Chunks(items[m..], b)|, b);
    }
  }

  /** The `k`-th chunk is `items[k * b .. min((k + 1) * b, n)]`. */
  lemma ChunkIsRange<T>(items: seq<T>, b: nat, k: nat)
    requires b >= 1
    requires k < |Chunks(items, b)|
    ensures k * b < |items|
    ensures Chunks(items, b)[k] == items[k * b .. Min(k * b + b, |items|)]
  {
    MulNonneg(k, b);
    ChunkAt(items, b, k, k * b);
  }

  /** `ChunkIsRange` with the offset `i = k * b` passed in, so that the
      induction itself does no multiplication. */
  lemma {:induction false} ChunkAt<T>(items: seq<T>, b: nat, k: nat, i: nat)
    requires b >= 1
    requires k < |Chunks(items, b)| && i == k * b
    ensures i < |items|
    ensures Chunks(items, b)[k] == items[i .. Min(i + b, |items|)]
    decreases k
  {
    var m := Min(b, |items|);
    var rest := items[m..];
    var cs := Chunks(items, b);
    assert cs == [items[..m]] + Chunks(rest, b);
    if k > 0 {
      assert m == b by {
        assert |cs[0]| == b;
      }
      assert i - b >= 0 && i - b == (k - 1) * b by {
        MulSucc(k - 1, b);
        MulNonneg(k - 1, b);
      }
      ChunkAt(rest, b, k - 1, i - b);
      assert cs[k] == Chunks(rest, b)[k - 1];
      ShiftByOneChunk(items, b, i - b, i);
    }
  }

  lemma MulNonneg(k: nat, b: nat)
    ensures k * b >= 0
  {
  }

  /** The `k`-th chunk is exactly the `items.slice(k * b, k * b + b)` of the
      `k`-th loop iteration. */
  lemma ChunkIsSlice<T>(items: seq<T>, b: nat, k: nat)
    requires b >= 1
    requires k < |Chunks(items, b)|
    ensures Chunks(items, b)[k] == Slice(items, k * b, k * b + b)
  {
    var i := k * b;
    MulNonneg(k, b);
    ChunkAt(items, b, k, i);
    SliceIsClamped(items, i, b);
  }

  lemma ShiftByOneChunk<T>(items: seq<T>, b: nat, j: nat, i: nat)
    requires b >= 1 && |items| > b && i == j + b && j < |items| - b
    ensures items[b..][j .. Min(j + b, |items| - b)] == items[i .. Min(i + b, |items|)]
  {
  }

  lemma SliceIsClamped<T>(items: seq<T>, i: nat, b: nat)
    requires i < |items|
    ensures Slice(items, i, i + b) == items[i .. Min(i + b, |items|)]
  {
  }

  /** The retry of one item of a failed chunk: `fn([item])` either contributes
      its results to the successes or the pair (item, error) to the failures. */
  function Retry<T, R, E>(item: T, bulk: BulkOp<T, R, E>): Execution<T, R, E>
  {
    match bulk([item])
    case Success(rs) => Execution(Report(rs, []), [RetryCall(item)])
    case Failure(e) => Execution(Report([], [Failed(item, e)]), [RetryCall(item)])
  }

  /** The per-item fallback of a failed chunk, taken left to right. */
  function Fallback<T, R, E>(chunk: seq<T>, bulk: BulkOp<T, R, E>): Execution<T, R, E>
    decreases |chunk|
  {
    if |chunk| == 0 then Idle()
    else Retry(chunk[0], bulk).Then(Fallback(chunk[1..], bulk))
  }

  /** One iteration of the loop: the bulk call on the whole chunk, and on its
      failure the per-item fallback; the chunk-level error is not kept. */
  function RunChunk<T, R, E>(chunk: seq<T>, bulk: BulkOp<T, R, E>): Execution<T, R, E>
  {
    match bulk(chunk)
    case Success(rs) => Execution(Report(rs, []), [ChunkCall(chunk)])
    case Failure(_) => Execution(Report([], []), [ChunkCall(chunk)]).Then(Fallback(chunk, bulk))
  }

  /** `processBatches(items, b, fn)`: the first chunk, then the rest. */
  function ProcessBatches<T, R, E>(items: seq<T>, b: nat, bulk: BulkOp<T, R, E>): Execution<T, R, E>
    requires b >= 1
    decreases |items|
  {
    if |items| == 0 then Idle()
    else
      var m := Min(b, |items|);
      RunChunk(items[..m], bulk).Then(ProcessBatches(items[m..], b, bulk))
  }

  lemma ThenAssoc<T, R, E>(x: Execution<T, R, E>, y: Execution<T, R, E>, z: Execution<T, R, E>)
    ensures x.Then(y).Then(z) == x.Then(y.Then(z))
  {
  }

  /** The trace projections distribute over concatenation. */
  lemma {:induction false} ArgsOfConcat<T>(a: seq<Call<T>>, c: seq<Call<T>>)
    ensures ChunkArgs(a + c) == ChunkArgs(a) + ChunkArgs(c)
    ensures RetryItems(a + c) == RetryItems(a) + RetryItems(c)
    decreases |a|
  {
    if |a| > 0 {
      assert (a + c)[1..] == a[1..] + c;
      ArgsOfConcat(a[1..], c);
    } else {
      assert a + c == c;
    }
  }
}

=== FILE: batches_loop.dfy ===
/** The engine as the compiled loop runs it: an index `i` that starts at 0
    and advances by `batchSize` while it is below the length, two accumulators
    appended to in place, and an inner loop over the items of a failed chunk. */
module BatchesLoop {
  import opened Wrappers
  import opened Batches

  /** `processBatches(items, b, fn)` as a loop; it computes exactly the
      successes, failures and bulk calls of the recursive definition. */
  method RunBatches<T, R, E>(items: seq<T>, b: nat, bulk: BulkOp<T, R, E>)
    returns (successes: seq<R>, failures: seq<Failed<T, E>>, calls: seq<Call<T>>)
    requires b >= 1
    ensures Execution(Report(successes, failures), calls) == ProcessBatches(items, b, bulk)
  {
    successes, failures, calls := [], [], [];
    var i: nat := 0;
    ghost var done: nat := 0;
    while i < |items|
      invariant done == Min(i, |items|)
      invariant Execution(Report(successes, failures), calls).Then(ProcessBatches(items[done..], b, bulk))
                == ProcessBatches(items, b, bulk)
      decreases |items| - i
    {
      var batch := Slice(items, i, i + b);
      ghost var acc := Execution(Report(successes, failures), calls);
      var s, f, c := RunOneChunk(batch, bulk);
      successes, failures, calls := successes + s, failures + f, calls + c;
      ghost var now := Execution(Report(successes, failures), calls);
      LoopStep(items, b, i, bulk, acc, now);
      done := Min(i + b, |items|);
      i := i + b;
    }
    assert items[done..] == [];
  }

  /** One iteration of the outer loop: the bulk call on the batch and, when
      it raises, the fallback; what it appends is exactly `RunChunk`. */
  method RunOneChunk<T, R, E>(batch: seq<T>, bulk: BulkOp<T, R, E>)
    returns (successes: seq<R>, failures: seq<Failed<T, E>>, calls: seq<Call<T>>)
    ensures Execution(Report(successes, failures), calls) == RunChunk(batch, bulk)
  {
    match bulk(batch) {
      case Success(res) =>
        successes, failures, calls := res, [], [ChunkCall(batch)];
      case Failure(_) =>
        var s, f, c := RunFallback(batch, bulk);
        successes, failures, calls := s, f, [ChunkCall(batch)] + c;
    }
  }

  /** The invariant of the outer loop is kept by one iteration. */
  lemma LoopStep<T, R, E>(items: seq<T>, b: nat, i: nat, bulk: BulkOp<T, R, E>,
                          acc: Execution<T, R, E>, now: Execution<T, R, E>)
    requires b >= 1 && i < |items|
    requires acc.Then(ProcessBatches(items[Min(i, |items|)..], b, bulk)) == ProcessBatches(items, b, bulk)
    requires now == acc.Then(RunChunk(Slice(items, i, i + b), bulk))
    ensures now.Then(ProcessBatches(items[Min(i + b, |items|)..], b, bulk)) == ProcessBatches(items, b, bulk)
  {
    UnfoldAt(items, b, i, bulk);
    ThenAssoc(acc, RunChunk(Slice(items, i, i + b), bulk), ProcessBatches(items[Min(i + b, |items|)..], b, bulk));
  }

  /** The `Promise.all` fallback over a failed chunk, taken left to right. */
  method RunFallback<T, R, E>(batch: seq<T>, bulk: BulkOp<T, R, E>)
    returns (successes: seq<R>, failures: seq<Failed<T, E>>, calls: seq<Call<T>>)
    ensures Execution(Report(successes, failures), calls) == Fallback(batch, bulk)
  {
    successes, failures, calls := [], [], [];
    var j := 0;
    while j < |batch|
      invariant 0 <= j <= |batch|
      invariant Execution(Report(successes, failures), calls).Then(Fallback(batch[j..], bulk))
                == Fallback(batch, bulk)
    {
      var item := batch[j];
      ghost var acc := Execution(Report(successes, failures), calls);
      FallbackStep(batch, j, bulk);
      ThenAssoc(acc, Retry(item, bulk), Fallback(batch[j + 1..], bulk));
      calls := calls + [RetryCall(item)];
      match bulk([item]) {
        case Success(r) =>
          successes := successes + r;
        case Failure(err) =>
          failures := failures + [Failed(item, err)];
      }
      assert Execution(Report(successes, failures), calls) == acc.Then(Retry(item, bulk));
      j := j + 1;
    }
    assert batch[j..] == [];
  }

  lemma FallbackStep<T, R, E>(batch: seq<T>, j: nat, bulk: BulkOp<T, R, E>)
    requires j < |batch|
    ensures Fallback(batch[j..], bulk) == Retry(batch[j], bulk).Then(Fallback(batch[j + 1..], bulk))
  {
    assert batch[j..][1..] == batch[j + 1..];
  }

  /** The loop body at index `i` performs the first step of the recursive
      definition on the remaining items. */
  lemma UnfoldAt<T, R, E>(items: seq<T>, b: nat, i: nat, bulk: BulkOp<T, R, E>)
    requires b >= 1 && i < |items|
    ensures ProcessBatches(items[i..], b, bulk)
            == RunChunk(Slice(items, i, i + b), bulk).Then(ProcessBatches(items[Min(i + b, |items|)..], b, bulk))
  {
    var rest := items[i..];
    var m := Min(b, |rest|);
    SliceIsClamped(items, i, b);
    assert Slice(items, i, i + b) == rest[..m];
    assert items[Min(i + b, |items|)..] == rest[m..];
  }
}

=== FILE: dispatch_properties.dfy ===
/** Properties of the tool dispatcher: how the replies of `delete_email` and
    `batch_delete_emails` relate to what the mail provider did, and which
    replies cannot depend on the provider at all. */
module DispatchProperties {
  import opened Wrappers
  import opened Batches
  import opened BatchProperties
  import opened Text
  import opened Tools

  function MessageId(d: Deleted): string
  {
    d.messageId
  }

  /** A single-id chunk fails with exactly the error of that id's delete. */
  lemma DeleteOne(gw: Gateway, id: string)
    ensures DeleteBulk(gw)([id]) == match gw(id)
                                    case Success(_) => Success([Deleted(id)])
                                    case Failure(e) => Failure(e)
  {
    assert DeleteBulk(gw)([id]) == DeleteAll(gw, [id]);
    assert [id][1..] == [];
    match gw(id)
    case Success(_) =>
      assert DeleteAll(gw, [id][1..]) == Success([]);
      assert DeleteAll(gw, [id]) == Success([Deleted(id)] + []);
      assert [Deleted(id)] + [] == [Deleted(id)];
    case Failure(e) =>
  }

  /** The deletion bulk operation returns one `{ messageId }` per id of its
      chunk, in order. */
  lemma DeleteBulkIsKeyed(gw: Gateway)
    ensures Keyed(DeleteBulk(gw), MessageId)
    ensures OnePerItem(DeleteBulk(gw))
  {
    forall c | DeleteBulk(gw)(c).Success?
      ensures MapSeq(MessageId, DeleteBulk(gw)(c).value) == c
    {
    }
  }

  /** A chunk holding an id whose delete fails always fails as a whole. */
  lemma {:induction false} FailingIdFailsItsChunks(gw: Gateway, chunks: seq<seq<string>>, id: string)
    requires gw(id).Failure?
    ensures multiset(FailedChunkItems(chunks, DeleteBulk(gw)))[id] == multiset(Flatten(chunks))[id]
    decreases |chunks|
  {
    if |chunks| > 0 {
      FailingIdFailsItsChunks(gw, chunks[1..], id);
      if id in chunks[0] {
        var i :| 0 <= i < |chunks[0]| && chunks[0][i] == id;
        assert DeleteBulk(gw)(chunks[0]).Failure?;
      } else {
        assert multiset(chunks[0])[id] == 0;
      }
    }
  }

  /** The outcome of a batch deletion: every id is reported exactly once,
      as deleted or as failed; an id is among the failures exactly as often
      as it was requested when its delete fails, and never otherwise; each
      failure carries the error of its own delete. */
  lemma BatchRunAccounts(gw: Gateway, v: BatchArgs)
    requires Runnable(v)
    ensures var x := BatchRun(gw, v);
            && |x.report.successes| + |x.report.failures| == |v.messageIds|
            && multiset(MapSeq(MessageId, x.report.successes)) + multiset(FailedItems(x.report.failures))
               == multiset(v.messageIds)
            && (forall k :: 0 <= k < |x.report.failures| ==>
                  x.report.failures[k].item in v.messageIds
                  && gw(x.report.failures[k].item) == Failure(x.report.failures[k].error))
    ensures forall id :: multiset(FailedItems(BatchRun(gw, v).report.failures))[id]
                         == if gw(id).Failure? then multiset(v.messageIds)[id] else 0
  {
    var b := CheckedBatchSize(v.batchSize, |v.messageIds|).value;
    var bulk := DeleteBulk(gw);
    var x := BatchRun(gw, v);
    DeleteBulkIsKeyed(gw);
    EveryItemCounted(v.messageIds, b, bulk);
    EveryItemAccountedOnce(v.messageIds, b, bulk, MessageId);
    CallsFollowChunks(v.messageIds, b, bulk);
    forall k | 0 <= k < |x.report.failures|
      ensures gw(x.report.failures[k].item) == Failure(x.report.failures[k].error)
    {
      DeleteOne(gw, x.report.failures[k].item);
    }
    forall id
      ensures multiset(FailedItems(x.report.failures))[id]
              == if gw(id).Failure? then multiset(v.messageIds)[id] else 0
    {
      FailureMultiplicity(v.messageIds, b, bulk, id);
      DeleteOne(gw, id);
      if gw(id).Failure? {
        FailingIdFailsItsChunks(gw, Chunks(v.messageIds, b), id);
      }
    }
  }

  /** The reply of a valid batch request is the summary of its engine run:
      its first line gives back the two counts, and when no id and no error
      message holds a line break the whole reply gives back one line per
      failure. */
  lemma BatchReplyReadsBack(gw: Gateway, req: Request)
    requires req.name == BatchTool
    requires ParseBatch(req.args).Success? && Runnable(ParseBatch(req.args).value)
    ensures var x := BatchRun(gw, ParseBatch(req.args).value);
            ReadHeader(Split(Dispatch(gw, req), '\n')[0]) == Some((|x.report.successes|, |x.report.failures|))
    ensures var v := ParseBatch(req.args).value;
            var x := BatchRun(gw, v);
            (forall id :: id in v.messageIds ==>
               '\n' !in id && (gw(id).Failure? ==> '\n' !in gw(id).error.message))
            ==> ReadSummary(Dispatch(gw, req))
                == Some((|x.report.successes|, |x.report.failures|, MapSeq(FailureLine, x.report.failures)))
  {
    var v := ParseBatch(req.args).value;
    var x := BatchRun(gw, v);
    assert Dispatch(gw, req) == Summary(|x.report.successes|, x.report.failures);
    SummaryCountsReadBack(|x.report.successes|, x.report.failures);
    if forall id :: id in v.messageIds ==> '\n' !in id && (gw(id).Failure? ==> '\n' !in gw(id).error.message) {
      BatchRunAccounts(gw, v);
      SummaryReadsBack(|x.report.successes|, x.report.failures);
    }
  }

  /** When no id holds a line break or a `(` and no error message a line
      break, each line of the reply's failure list names a failed id and the
      message its own delete raised, one line per failure, in order. */
  lemma BatchReplyNamesEachFailure(gw: Gateway, req: Request)
    requires req.name == BatchTool
    requires ParseBatch(req.args).Success? && Runnable(ParseBatch(req.args).value)
    requires forall id :: id in ParseBatch(req.args).value.messageIds ==>
               '\n' !in id && '(' !in id && (gw(id).Failure? ==> '\n' !in gw(id).error.message)
    ensures ReadSummary(Dispatch(gw, req)).Some?
    ensures var x := BatchRun(gw, ParseBatch(req.args).value);
            var lines := ReadSummary(Dispatch(gw, req)).value.2;
            && |lines| == |x.report.failures|
            && forall k :: 0 <= k < |lines| ==>
                 && ReadFailureLine(lines[k]) == Some((x.report.failures[k].item, x.report.failures[k].error.message))
                 && gw(x.report.failures[k].item) == Failure(x.report.failures[k].error)
  {
    var v := ParseBatch(req.args).value;
    var x := BatchRun(gw, v);
    assert Dispatch(gw, req) == Summary(|x.report.successes|, x.report.failures);
    BatchRunAccounts(gw, v);
    SummaryNamesEachFailure(|x.report.successes|, x.report.failures);
  }

  /** Arguments that fail validation give an `Error:` reply before the
      provider is reached, whatever the provider would do. */
  lemma InvalidArgumentsNeverReachTheProvider(gw1: Gateway, gw2: Gateway, req: Request)
    requires || (req.name == DeleteTool && ParseDelete(req.args).Failure?)
             || (req.name == BatchTool && ParseBatch(req.args).Failure?)
             || (req.name == BatchTool && !Runnable(ParseBatch(req.args).value))
    ensures Dispatch(gw1, req) == Dispatch(gw2, req)
    ensures StartsWith(Dispatch(gw1, req), "Error: ")
  {
  }

  /** An unknown tool name is reported without looking at the arguments or
      reaching the provider. */
  lemma UnknownToolIgnoresArguments(gw1: Gateway, gw2: Gateway, name: string, args1: Json, args2: Json)
    requires name != DeleteTool && name != BatchTool
    ensures Dispatch(gw1, Request(name, args1)) == Dispatch(gw2, Request(name, args2))
    ensures Dispatch(gw1, Request(name, args1)) == "Unknown tool: " + name
  {
  }

  /** `delete_email` with a well-formed id calls the provider once for that
      id: it confirms the deletion when the provider succeeds and otherwise
      reports the provider's error text. */
  lemma DeleteEmailReply(gw: Gateway, id: string)
    ensures var reply := Dispatch(gw, Request(DeleteTool, JObj(map["messageId" := JStr(id)])));
            && (gw(id).Success? ==> reply == "Deleted message " + id)
            && (gw(id).Failure? ==> reply == "Error: " + ErrorText(gw(id).error))
  {
  }

  /** With no ids the loop never runs, so the reply is the empty summary
      whatever the batch size, a negative one included. */
  lemma NoIdsAnyBatchSize(gw: Gateway, n: int)
    ensures Dispatch(gw, Request(BatchTool, JObj(map["messageIds" := JArr([]), "batchSize" := JNum(n)])))
            == "Batch delete complete. Successes: 0. Failures: 0."
  {
    var req := Request(BatchTool, JObj(map["messageIds" := JArr([]), "batchSize" := JNum(n)]));
    assert ParseBatch(req.args) == Success(BatchArgs([], n));
    assert Dispatch(gw, req) == Summary(0, []);
    EmptySummary();
  }

  lemma EmptySummary()
    ensures Summary(0, []) == "Batch delete complete. Successes: 0. Failures: 0."
  {
    assert NatToString(0) == "0";
  }

  /** `batchSize || 50`: a batch size of 0 behaves exactly as an absent one,
      and both as a batch size of 50. */
  lemma ZeroBatchSizeMeansDefault(gw: Gateway, ids: seq<Json>)
    ensures var absent := Request(BatchTool, JObj(map["messageIds" := JArr(ids)]));
            var zero := Request(BatchTool, JObj(map["messageIds" := JArr(ids), "batchSize" := JNum(0)]));
            var fifty := Request(BatchTool, JObj(map["messageIds" := JArr(ids), "batchSize" := JNum(50)]));
            Dispatch(gw, zero) == Dispatch(gw, absent) == Dispatch(gw, fifty)
  {
  }

  /** A provider on which deleting `poison` fails and every other delete
      succeeds. */
  function PoisonGateway(): Gateway
  {
    (id: string) => if id == "poison" then Failure(Fault("Error", "Not Found")) else Success(())
  }

  const PoisonIds: seq<string> := ["a", "b", "poison", "d"]

  /** Four ids in chunks of two, the third of them poisoned: the first chunk
      is deleted wholesale, the second fails as a whole and is retried one id
      at a time, and only the poisoned id is reported. */
  lemma PoisonIdIsIsolated()
    ensures var x := ProcessBatches(PoisonIds, 2, DeleteBulk(PoisonGateway()));
            && x.report == Report([Deleted("a"), Deleted("b"), Deleted("d")],
                                  [Failed("poison", Fault("Error", "Not Found"))])
            && x.calls == [ChunkCall(["a", "b"]), ChunkCall(["poison", "d"]), RetryCall("poison"), RetryCall("d")]
  {
    var bulk := DeleteBulk(PoisonGateway());
    PoisonChunks();
    CleanChunk();
    PoisonedChunk();
    assert [Deleted("a"), Deleted("b")] + [Deleted("d")] == [Deleted("a"), Deleted("b"), Deleted("d")];
    assert [ChunkCall(["a", "b"])] + [ChunkCall(["poison", "d"]), RetryCall("poison"), RetryCall("d")]
           == [ChunkCall(["a", "b"]), ChunkCall(["poison", "d"]), RetryCall("poison"), RetryCall("d")];
  }

  lemma PoisonChunks()
    ensures var bulk := DeleteBulk(PoisonGateway());
            ProcessBatches(PoisonIds, 2, bulk) == RunChunk(["a", "b"], bulk).Then(RunChunk(["poison", "d"], bulk))
  {
    var bulk := DeleteBulk(PoisonGateway());
    var items := PoisonIds;
    assert items[..2] == ["a", "b"] && items[2..] == ["poison", "d"];
    UnfoldFullChunk(items, 2, bulk);
    SingleChunk(items[2..], 2, bulk);
  }

  lemma CleanChunk()
    ensures RunChunk(["a", "b"], DeleteBulk(PoisonGateway()))
            == Execution(Report([Deleted("a"), Deleted("b")], []), [ChunkCall(["a", "b"])])
  {
    var gw := PoisonGateway();
    var ab: seq<string> := ["a", "b"];
    assert gw(ab[0]).Success? && gw(ab[1]).Success?;
    var r := DeleteAll(gw, ab);
    assert r.value[0].messageId == "a" && r.value[1].messageId == "b";
    assert r.value[0] == Deleted("a") && r.value[1] == Deleted("b");
    assert r.value == [Deleted("a"), Deleted("b")];
  }

  lemma PoisonedChunk()
    ensures RunChunk(["poison", "d"], DeleteBulk(PoisonGateway()))
            == Execution(Report([Deleted("d")], [Failed("poison", Fault("Error", "Not Found"))]),
                         [ChunkCall(["poison", "d"]), RetryCall("poison"), RetryCall("d")])
  {
    var gw := PoisonGateway();
    var bulk := DeleteBulk(gw);
    DeleteOne(gw, "poison");
    DeleteOne(gw, "d");
    var pd: seq<string> := ["poison", "d"];
    assert gw(pd[0]).Failure?;
    assert DeleteAll(gw, pd).Failure?;
    assert pd[1..] == ["d"];
    assert Fallback(pd, bulk)
           == Execution(Report([Deleted("d")], [Failed("poison", Fault("Error", "Not Found"))]),
                        [RetryCall("poison"), RetryCall("d")]);
  }

  /** The reply to that request, word for word. */
  lemma PoisonIdReply()
    ensures Dispatch(PoisonGateway(), Request(BatchTool, BatchJson(BatchArgs(PoisonIds, 2))))
            == "Batch delete complete. Successes: 3. Failures: 1." + ("\n" + "Failed IDs:" + "\n" + "- poison (Not Found)")
  {
    var v := BatchArgs(PoisonIds, 2);
    ParseBatchOfBatchJson(v);
    PoisonIdIsIsolated();
    var x := BatchRun(PoisonGateway(), v);
    assert |x.report.successes| == 3;
    assert Dispatch(PoisonGateway(), Request(BatchTool, BatchJson(v))) == Summary(3, x.report.failures);
    PoisonSummary();
  }

  lemma PoisonSummary()
    ensures Summary(3, [Failed("poison", Fault("Error", "Not Found"))])
            == "Batch delete complete. Successes: 3. Failures: 1." + ("\n" + "Failed IDs:" + "\n" + "- poison (Not Found)")
  {
    PoisonHeader();
    PoisonFailureList();
  }

  lemma PoisonHeader()
    ensures Header(3, 1) == "Batch delete complete. Successes: 3. Failures: 1."
  {
    assert NatToString(3) == "3" && NatToString(1) == "1";
  }

  lemma PoisonFailureList()
    ensures Join(MapSeq(FailureLine, [Failed("poison", Fault("Error", "Not Found"))]), "\n") == "- poison (Not Found)"
  {
    var f := Failed("poison", Fault("Error", "Not Found"));
    assert FailureLine(f) == "- poison (Not Found)";
    assert MapSeq(FailureLine, [f]) == ["- poison (Not Found)"];
  }
}

=== FILE: loop_termination.dfy ===
/** The loop header `for (let i = 0; i < items.length; i += batchSize)` on
    its own: how many rounds it runs. Validation accepts any number as
    `batchSize`, and `batchSize || 50` only replaces 0, so a negative size
    reaches the loop, whose index then moves away from the bound forever.
    `Tools.CheckedBatchSize` is the corrected validation the dispatcher uses;
    with it the loop runs once per chunk. With no ids the loop never runs,
    whatever the size. */
module LoopTermination {
  import opened Wrappers
  import opened Batches
  import opened Tools

  /** The rounds `for (; i < n; i += b)` runs, counting at most `fuel`. */
  function LoopRounds(i: int, n: int, b: int, fuel: nat): (r: nat)
    ensures r <= fuel
    decreases fuel
  {
    if fuel == 0 || i >= n then 0 else 1 + LoopRounds(i + b, n, b, fuel - 1)
  }

  /** As written: once inside, a loop with a negative step never leaves,
      however many rounds are allowed. */
  lemma {:induction false} NegativeStepNeverExits(i: int, n: int, b: int, fuel: nat)
    requires b < 0 && i < n
    ensures LoopRounds(i, n, b, fuel) == fuel
    decreases fuel
  {
    if fuel > 0 {
      NegativeStepNeverExits(i + b, n, b, fuel - 1);
    }
  }

  /** As written: `{ messageIds: ["a"], batchSize: -1 }` passes validation,
      keeps its size through `|| 50`, and the loop over one id never ends. */
  lemma NegativeBatchSizeHangs(fuel: nat)
    ensures ParseBatch(JObj(map["messageIds" := JArr([JStr("a")]), "batchSize" := JNum(-1)]))
            == Success(BatchArgs(["a"], -1))
    ensures EffectiveBatchSize(-1) == -1
    ensures LoopRounds(0, 1, EffectiveBatchSize(-1), fuel) == fuel
  {
    var elems := [JStr("a")];
    assert elems[0].JStr? && elems[0].s == "a";
    assert Strings(elems).value[0] == "a";
    assert Strings(elems).value == ["a"];
    NegativeStepNeverExits(0, 1, -1, fuel);
  }

  /** Starting from `i`, a positive step makes at most `n - i` rounds. */
  lemma {:induction false} PositiveStepExits(i: int, n: int, b: int, fuel: nat)
    requires b >= 1 && fuel > n - i && fuel >= 1
    ensures LoopRounds(i, n, b, fuel) < fuel
    ensures i < n ==> LoopRounds(i, n, b, fuel) <= n - i
    decreases fuel
  {
    if i < n {
      PositiveStepExits(i + b, n, b, fuel - 1);
    }
  }

  lemma {:induction false} LoopRoundsShift(i: int, n: int, b: int, d: int, fuel: nat)
    ensures LoopRounds(i + d, n + d, b, fuel) == LoopRounds(i, n, b, fuel)
    decreases fuel
  {
    if fuel > 0 && i < n {
      LoopRoundsShift(i + b, n, b, d, fuel - 1);
      assert i + d + b == i + b + d;
    }
  }

  /** With a step of at least 1 and enough rounds allowed, the loop runs
      exactly once per chunk. */
  lemma {:induction false} LoopRunsOncePerChunk<T>(items: seq<T>, b: nat, fuel: nat)
    requires b >= 1 && fuel > |items|
    ensures LoopRounds(0, |items|, b, fuel) == |Chunks(items, b)|
    decreases |items|
  {
    if |items| > 0 {
      var m := Min(b, |items|);
      assert Chunks(items, b) == [items[..m]] + Chunks(items[m..], b);
      if m == b {
        LoopRunsOncePerChunk(items[b..], b, fuel - 1);
        LoopRoundsShift(0, |items| - b, b, b, fuel - 1);
      } else {
        assert items[m..] == [];
      }
    }
  }

  /** As written: with at least one id, every negative batch size keeps its
      sign through `|| 50` and the loop never ends; those are exactly the
      arguments the corrected validation refuses. */
  lemma NegativeBatchSizeHangsOnAnyIds<T>(items: seq<T>, batchSize: int, fuel: nat)
    requires |items| > 0 && batchSize < 0
    ensures LoopRounds(0, |items|, EffectiveBatchSize(batchSize), fuel) == fuel
    ensures CheckedBatchSize(batchSize, |items|).Failure?
  {
    NegativeStepNeverExits(0, |items|, EffectiveBatchSize(batchSize), fuel);
  }

  /** Corrected: every batch size the corrected validation accepts ends the
      loop, after exactly one round per chunk. */
  lemma AcceptedBatchSizeEndsTheLoop<T>(items: seq<T>, batchSize: int)
    requires CheckedBatchSize(batchSize, |items|).Success?
    ensures LoopRounds(0, |items|, CheckedBatchSize(batchSize, |items|).value, |items| + 1)
            == |Chunks(items, CheckedBatchSize(batchSize, |items|).value)|
            <= |items|
  {
    var b := CheckedBatchSize(batchSize, |items|).value;
    LoopRunsOncePerChunk(items, b, |items| + 1);
    PositiveStepExits(0, |items|, b, |items| + 1);
  }
}

=== FILE: text.dfy ===
/** The string operations the dispatcher's summary uses: the decimal
    rendering of a count (`${n}` of a non-negative integer), `Array.join` and,
    as its inverse, `String.split` on one character. */
module Text {

  predicate IsDigit(c: char)
  {
    '0' <= c <= '9'
  }

  predicate AllDigits(s: string)
  {
    forall i :: 0 <= i < |s| ==> IsDigit(s[i])
  }

  predicate StartsWith(s: string, prefix: string)
  {
    |prefix| <= |s| && s[..|prefix|] == prefix
  }

  /** A string does not start with a prefix whose first character it lacks. */
  lemma OtherFirstCharacter(s: string, prefix: string)
    requires |s| > 0 && |prefix| > 0 && s[0] != prefix[0]
    ensures !StartsWith(s, prefix)
  {
  }

  function DigitChar(d: nat): (c: char)
    requires d < 10
    ensures IsDigit(c)
  {
    (('0' as int) + d) as char
  }

  function DigitValue(c: char): nat
    requires IsDigit(c)
  {
    (c as int) - ('0' as int)
  }

  /** The decimal rendering of a non-negative integer: a non-empty string of
      digits with no leading zero. */
  function NatToString(n: nat): (s: string)
    ensures |s| >= 1 && AllDigits(s)
    ensures s[0] == '0' ==> n == 0
    decreases n
  {
    if n < 10 then [DigitChar(n)] else NatToString(n / 10) + [DigitChar(n % 10)]
  }

  /** The value of a string of decimal digits. */
  function DigitsValue(s: string): nat
    requires AllDigits(s)
    decreases |s|
  {
    if |s| == 0 then 0 else DigitsValue(s[..|s| - 1]) * 10 + DigitValue(s[|s| - 1])
  }

  /** Reading a rendered count gives the count back. */
  lemma {:induction false} ReadRenderedCount(n: nat)
    ensures DigitsValue(NatToString(n)) == n
    decreases n
  {
    var s := NatToString(n);
    if n < 10 {
      assert s[..|s| - 1] == [];
    } else {
      ReadRenderedCount(n / 10);
      assert s[..|s| - 1] == NatToString(n / 10);
    }
  }

  /** The number of digits at the start of `s`. */
  function LeadingDigits(s: string): (k: nat)
    ensures k <= |s|
    ensures AllDigits(s[..k])
    ensures k < |s| ==> !IsDigit(s[k])
    decreases |s|
  {
    if |s| == 0 || !IsDigit(s[0]) then 0 else 1 + LeadingDigits(s[1..])
  }

  lemma {:induction false} LeadingDigitsOfConcat(d: string, rest: string)
    requires AllDigits(d)
    requires |rest| > 0 && !IsDigit(rest[0])
    ensures LeadingDigits(d + rest) == |d|
    decreases |d|
  {
    if |d| > 0 {
      assert (d + rest)[1..] == d[1..] + rest;
      LeadingDigitsOfConcat(d[1..], rest);
    } else {
      assert d + rest == rest;
    }
  }

  /** The position of the first `c` in `s`, or `|s|` when there is none. */
  function FirstIndex(s: string, c: char): (k: nat)
    ensures k <= |s|
    ensures k < |s| ==> s[k] == c
    ensures forall j :: 0 <= j < k ==> s[j] != c
    decreases |s|
  {
    if |s| == 0 || s[0] == c then 0 else 1 + FirstIndex(s[1..], c)
  }

  /** `parts.join(sep)`. */
  function Join(parts: seq<string>, sep: string): string
    decreases |parts|
  {
    if |parts| == 0 then ""
    else if |parts| == 1 then parts[0]
    else parts[0] + sep + Join(parts[1..], sep)
  }

  /** `s.split(sep)` for a one-character separator: the maximal pieces between
      separators, so there is always at least one. */
  function Split(s: string, sep: char): (parts: seq<string>)
    ensures |parts| >= 1
    decreases |s|
  {
    if |s| == 0 then [""]
    else
      var rest := Split(s[1..], sep);
      if s[0] == sep then [""] + rest else [[s[0]] + rest[0]] + rest[1..]
  }

  lemma {:induction false} SplitWithoutSeparator(a: string, sep: char)
    requires sep !in a
    ensures Split(a, sep) == [a]
    decreases |a|
  {
    if |a| > 0 {
      SplitWithoutSeparator(a[1..], sep);
      assert [a[0]] + a[1..] == a;
    }
  }

  lemma {:induction false} SplitAtFirstSeparator(a: string, sep: char, t: string)
    requires sep !in a
    ensures Split(a + [sep] + t, sep) == [a] + Split(t, sep)
    decreases |a|
  {
    var s := a + [sep] + t;
    if |a| == 0 {
      assert s[1..] == t;
    } else {
      assert s[1..] == a[1..] + [sep] + t;
      SplitAtFirstSeparator(a[1..], sep, t);
      assert [a[0]] + a[1..] == a;
    }
  }

  /** Splitting a join on its separator gives the parts back, provided no
      part contains the separator. */
  lemma {:induction false} SplitJoin(parts: seq<string>, sep: char)
    requires |parts| >= 1
    requires forall i :: 0 <= i < |parts| ==> sep !in parts[i]
    ensures Split(Join(parts, [sep]), sep) == parts
    decreases |parts|
  {
    if |parts| == 1 {
      SplitWithoutSeparator(parts[0], sep);
    } else {
      SplitJoin(parts[1..], sep);
      SplitAtFirstSeparator(parts[0], sep, Join(parts[1..], [sep]));
      assert [parts[0]] + parts[1..] == parts;
    }
  }

  /** The first piece of a split is everything before the first separator. */
  lemma FirstPiece(a: string, sep: char, t: string)
    requires sep !in a
    ensures Split(a, sep)[0] == a
    ensures Split(a + [sep] + t, sep)[0] == a
  {
    SplitWithoutSeparator(a, sep);
    SplitAtFirstSeparator(a, sep, t);
  }
}

=== FILE: tools.dfy ===
/** The tool dispatcher of the server: the `delete_email` and
    `batch_delete_emails` tools, their argument schemas, the bulk deletion
    operation handed to the batch engine, the summary text, and the textual
    replies for unknown tools and for every raised error. */
module Tools {
  import opened Wrappers
  import opened Batches
  import opened Text

  /** A raised JavaScript `Error`, by its `name` and `message`. */
  datatype Fault = Fault(name: string, message: string)

  /** The authenticated single-message delete of the mail provider
      (`gmail.users.messages.delete` with `userId: "me"`): it succeeds or
      raises. */
  type Gateway = string -> Result<(), Fault>

  /** The `{ messageId }` result the bulk operation returns per item. */
  datatype Deleted = Deleted(messageId: string)

  /** The tool arguments as they arrive: a JSON value. */
  datatype Json =
    | JNull
    | JBool(b: bool)
    | JNum(n: int)
    | JStr(s: string)
    | JArr(elems: seq<Json>)
    | JObj(fields: map<string, Json>)

  datatype DeleteArgs = DeleteArgs(messageId: string)

  datatype BatchArgs = BatchArgs(messageIds: seq<string>, batchSize: int)

  datatype Request = Request(name: string, args: Json)

  const DeleteTool := "delete_email"
  const BatchTool := "batch_delete_emails"
  const DefaultBatchSize := 50

  /** The error the schema's `parse` raises on a shape mismatch. */
  function Invalid(path: string, expected: string): Fault
  {
    Fault("ZodError", "Expected " + expected + " at " + path)
  }

  /** The strings of an array whose elements are all strings. */
  function Strings(elems: seq<Json>): (r: Option<seq<string>>)
    ensures r.Some? <==> forall i :: 0 <= i < |elems| ==> elems[i].JStr?
    ensures r.Some? ==> |r.value| == |elems| && forall i :: 0 <= i < |elems| ==> r.value[i] == elems[i].s
    decreases |elems|
  {
    if |elems| == 0 then Some([])
    else if !elems[0].JStr? then None
    else match Strings(elems[1..])
      case None => None
      case Some(rest) => Some([elems[0].s] + rest)
  }

  /** `DeleteEmailSchema.parse`: an object whose `messageId` is a string (any
      string, the empty one included). */
  function ParseDelete(args: Json): (r: Result<DeleteArgs, Fault>)
    ensures r.Success? <==> args.JObj? && "messageId" in args.fields && args.fields["messageId"].JStr?
    ensures r.Success? ==> r.value.messageId == args.fields["messageId"].s
  {
    if !args.JObj? then Failure(Invalid("", "object"))
    else if "messageId" !in args.fields || !args.fields["messageId"].JStr? then Failure(Invalid("messageId", "string"))
    else Success(DeleteArgs(args.fields["messageId"].s))
  }

  /** `BatchDeleteEmailsSchema.parse`: an object whose `messageIds` is an
      array of strings and whose `batchSize`, if present, is a number; an
      absent `batchSize` becomes 50. */
  function ParseBatch(args: Json): (r: Result<BatchArgs, Fault>)
    ensures r.Success? <==>
              && args.JObj?
              && "messageIds" in args.fields && args.fields["messageIds"].JArr?
              && Strings(args.fields["messageIds"].elems).Some?
              && ("batchSize" in args.fields ==> args.fields["batchSize"].JNum?)
    ensures r.Success? ==>
              && r.value.messageIds == Strings(args.fields["messageIds"].elems).value
              && r.value.batchSize == if "batchSize" in args.fields then args.fields["batchSize"].n else 50
  {
    if !args.JObj? then Failure(Invalid("", "object"))
    else if "messageIds" !in args.fields || !args.fields["messageIds"].JArr? then Failure(Invalid("messageIds", "array"))
    else match Strings(args.fields["messageIds"].elems)
      case None => Failure(Invalid("messageIds", "string"))
      case Some(ids) =>
        if "batchSize" !in args.fields then Success(BatchArgs(ids, DefaultBatchSize))
        else if !args.fields["batchSize"].JNum? then Failure(Invalid("batchSize", "number"))
        else Success(BatchArgs(ids, args.fields["batchSize"].n))
  }

  /** The arguments a client sends for a batch deletion. */
  function BatchJson(v: BatchArgs): Json
  {
    JObj(map["messageIds" := JArr(MapSeq((id: string) => JStr(id), v.messageIds)),
             "batchSize" := JNum(v.batchSize)])
  }

  /** Parsing is the inverse of building the arguments, and a request without
      `batchSize` gets the default of 50. */
  lemma ParseBatchOfBatchJson(v: BatchArgs)
    ensures ParseBatch(BatchJson(v)) == Success(v)
    ensures ParseBatch(JObj(map["messageIds" := BatchJson(v).fields["messageIds"]]))
            == Success(BatchArgs(v.messageIds, 50))
  {
    var elems := MapSeq((id: string) => JStr(id), v.messageIds);
    assert Strings(elems).value == v.messageIds;
  }

  /** `batchSize || 50`: a zero batch size is replaced by the default. */
  function EffectiveBatchSize(batchSize: int): (b: int)
    ensures batchSize != 0 ==> b == batchSize
    ensures batchSize == 0 ==> b == DefaultBatchSize
    ensures batchSize >= 0 ==> b >= 1
  {
    if batchSize == 0 then DefaultBatchSize else batchSize
  }

  /** The bulk operation of `batch_delete_emails`: one delete per id of the
      chunk; if any raises, the call raises one of those errors, otherwise it
      returns `{ messageId }` for every id, in chunk order. */
  function DeleteAll(gw: Gateway, batch: seq<string>): (r: Result<seq<Deleted>, Fault>)
    ensures r.Success? <==> forall i :: 0 <= i < |batch| ==> gw(batch[i]).Success?
    ensures r.Success? ==> |r.value| == |batch| && forall i :: 0 <= i < |batch| ==> r.value[i].messageId == batch[i]
    ensures r.Failure? ==> exists i :: 0 <= i < |batch| && gw(batch[i]) == Failure(r.error)
    decreases |batch|
  {
    if |batch| == 0 then Success([])
    else match gw(batch[0])
      case Failure(e) => Failure(e)
      case Success(_) =>
        match DeleteAll(gw, batch[1..])
        case Failure(e) => Failure(e)
        case Success(ds) => Success([Deleted(batch[0])] + ds)
  }

  /** The bulk operation handed to the engine. */
  function DeleteBulk(gw: Gateway): BulkOp<string, Deleted, Fault>
  {
    (batch: seq<string>) => DeleteAll(gw, batch)
  }

  /** The batch size the engine runs with, for `count` ids. Validation as
      written lets a negative `batchSize` through, and with at least one id
      the loop then never ends (see `LoopTermination`); here that case is a
      validation error, and `|| 50` applies to the others. With no ids the
      loop body never runs and the size is never used, so any size is
      accepted and the default stands in for a negative one. */
  function CheckedBatchSize(batchSize: int, count: nat): (r: Result<nat, Fault>)
    ensures r.Failure? <==> batchSize < 0 && count > 0
    ensures r.Success? ==> r.value >= 1
    ensures r.Success? && batchSize > 0 ==> r.value == batchSize
    ensures r.Success? && batchSize <= 0 ==> r.value == DefaultBatchSize
  {
    if batchSize < 0 && count > 0 then Failure(Invalid("batchSize", "non-negative number"))
    else if batchSize < 0 then Success(DefaultBatchSize)
    else Success(EffectiveBatchSize(batchSize))
  }

  /** Whether the dispatcher runs the engine on these arguments. */
  predicate Runnable(v: BatchArgs)
  {
    CheckedBatchSize(v.batchSize, |v.messageIds|).Success?
  }

  /** The engine run of a parsed `batch_delete_emails` request. */
  function BatchRun(gw: Gateway, v: BatchArgs): (x: Execution<string, Deleted, Fault>)
    requires Runnable(v)
    ensures v.batchSize >= 0 ==> x == ProcessBatches(v.messageIds, EffectiveBatchSize(v.batchSize), DeleteBulk(gw))
    ensures v.messageIds == [] ==> x == Idle()
  {
    ProcessBatches(v.messageIds, CheckedBatchSize(v.batchSize, |v.messageIds|).value, DeleteBulk(gw))
  }

  /** `err?.message || String(err)` for a raised `Error`: its message, or its
      name when the message is empty. */
  function ErrorText(f: Fault): string
  {
    if f.message != "" then f.message else f.name
  }

  const SuccessesLabel := "Batch delete complete. Successes: "
  const FailuresLabel := ". Failures: "
  const FailedIdsLine := "Failed IDs:"

  function Header(successes: nat, failures: nat): string
  {
    SuccessesLabel + NatToString(successes) + FailuresLabel + NatToString(failures) + "."
  }

  /** `- ${String(f.item)} (${f.error.message})`. */
  function FailureLine(f: Failed<string, Fault>): string
  {
    "- " + f.item + " (" + f.error.message + ")"
  }

  /** Reads a failure line back as its id and message: the id runs up to
      the first ` (`, the message from there to the closing `)`. */
  function ReadFailureLine(line: string): Option<(string, string)>
  {
    if !StartsWith(line, "- ") then None
    else
      var rest := line[2..];
      var p := FirstIndex(rest, '(');
      if p == 0 || p + 2 > |rest| || rest[p - 1] != ' ' || rest[|rest| - 1] != ')' then None
      else Some((rest[..p - 1], rest[p + 1..|rest| - 1]))
  }

  /** A failure line gives back the failed id and its error message,
      provided the id holds no `(`. */
  lemma FailureLineReadsBack(f: Failed<string, Fault>)
    requires '(' !in f.item
    ensures ReadFailureLine(FailureLine(f)) == Some((f.item, f.error.message))
  {
    var line := FailureLine(f);
    var rest := f.item + " (" + f.error.message + ")";
    assert line == "- " + rest;
    PrefixThenRest("- ", rest);
    var p := FirstIndex(rest, '(');
    assert rest[|f.item| + 1] == '(';
    assert p == |f.item| + 1 by {
      forall j | 0 <= j < |f.item| + 1 ensures rest[j] != '(' {
        if j < |f.item| { assert rest[j] == f.item[j]; }
      }
    }
    assert rest[..p - 1] == f.item;
    assert rest[p + 1..|rest| - 1] == f.error.message;
  }

  /** The text of the `batch_delete_emails` reply: the counts, and the failure
      list only when there is at least one failure. */
  function Summary(successCount: nat, failures: seq<Failed<string, Fault>>): string
  {
    Header(successCount, |failures|)
    + (if |failures| > 0 then "\n" + FailedIdsLine + "\n" + Join(MapSeq(FailureLine, failures), "\n") else "")
  }

  /** Reads the counts back from a summary header line. */
  function ReadHeader(line: string): Option<(nat, nat)>
  {
    if !StartsWith(line, SuccessesLabel) then None
    else
      var r1 := line[|SuccessesLabel|..];
      var k1 := LeadingDigits(r1);
      var r2 := r1[k1..];
      if k1 == 0 || !StartsWith(r2, FailuresLabel) then None
      else
        var r3 := r2[|FailuresLabel|..];
        var k2 := LeadingDigits(r3);
        if k2 == 0 || r3[k2..] != "." then None
        else Some((DigitsValue(r1[..k1]), DigitsValue(r3[..k2])))
  }

  /** Reads a summary back: its counts from the first line and, when the
      failure list is present, one line per failure. */
  function ReadSummary(text: string): Option<(nat, nat, seq<string>)>
  {
    var lines := Split(text, '\n');
    match ReadHeader(lines[0])
    case None => None
    case Some(counts) =>
      if |lines| == 1 then Some((counts.0, counts.1, []))
      else if |lines| >= 3 && lines[1] == FailedIdsLine then Some((counts.0, counts.1, lines[2..]))
      else None
  }

  lemma ReadHeaderOfHeader(s: nat, f: nat)
    ensures ReadHeader(Header(s, f)) == Some((s, f))
  {
    var d1, d2 := NatToString(s), NatToString(f);
    var r3 := d2 + ".";
    var r2 := FailuresLabel + r3;
    var r1 := d1 + r2;
    var line := SuccessesLabel + r1;
    assert Header(s, f) == line;
    PrefixThenRest(SuccessesLabel, r1);
    DigitsThenRest(d1, r2);
    PrefixThenRest(FailuresLabel, r3);
    DigitsThenRest(d2, ".");
    ReadRenderedCount(s);
    ReadRenderedCount(f);
  }

  lemma PrefixThenRest(p: string, t: string)
    ensures StartsWith(p + t, p) && (p + t)[|p|..] == t
  {
    assert (p + t)[..|p|] == p;
  }

  lemma DigitsThenRest(d: string, t: string)
    requires AllDigits(d) && |t| > 0 && !IsDigit(t[0])
    ensures LeadingDigits(d + t) == |d| && (d + t)[..|d|] == d && (d + t)[|d|..] == t
  {
    LeadingDigitsOfConcat(d, t);
  }

  lemma HeaderIsOneLine(s: nat, f: nat)
    ensures '\n' !in Header(s, f)
  {
    var d1, d2 := NatToString(s), NatToString(f);
    assert '\n' !in d1 && '\n' !in d2 by {
      assert !IsDigit('\n');
    }
    assert '\n' !in SuccessesLabel && '\n' !in FailuresLabel;
  }

  /** The counts of a summary read back as the counts it was made from,
      whatever the ids and messages contain. */
  lemma SummaryCountsReadBack(successCount: nat, failures: seq<Failed<string, Fault>>)
    ensures ReadHeader(Split(Summary(successCount, failures), '\n')[0]) == Some((successCount, |failures|))
  {
    var h := Header(successCount, |failures|);
    HeaderIsOneLine(successCount, |failures|);
    ReadHeaderOfHeader(successCount, |failures|);
    if |failures| > 0 {
      var t := FailedIdsLine + "\n" + Join(MapSeq(FailureLine, failures), "\n");
      assert Summary(successCount, failures) == h + ['\n'] + t;
      FirstPiece(h, '\n', t);
    } else {
      assert Summary(successCount, failures) == h;
      FirstPiece(h, '\n', "");
    }
  }

  /** When no id and no message contains a line break, the whole summary
      reads back: both counts and exactly one line per failure, in order, and
      no failure list when there is no failure. */
  lemma SummaryReadsBack(successCount: nat, failures: seq<Failed<string, Fault>>)
    requires forall k :: 0 <= k < |failures| ==> '\n' !in failures[k].item && '\n' !in failures[k].error.message
    ensures ReadSummary(Summary(successCount, failures))
            == Some((successCount, |failures|, MapSeq(FailureLine, failures)))
  {
    var h := Header(successCount, |failures|);
    HeaderIsOneLine(successCount, |failures|);
    ReadHeaderOfHeader(successCount, |failures|);
    var lines := MapSeq(FailureLine, failures);
    if |failures| > 0 {
      forall k | 0 <= k < |lines|
        ensures '\n' !in lines[k]
      {
        assert lines[k] == "- " + failures[k].item + " (" + failures[k].error.message + ")";
      }
      var body := Join(lines, "\n");
      SplitJoin(lines, '\n');
      assert Summary(successCount, failures) == h + "\n" + FailedIdsLine + "\n" + body;
      SplitWithFailureList(h, body);
      ReadSummaryOfLines(Summary(successCount, failures), h, lines);
    } else {
      assert Summary(successCount, failures) == h;
      SplitWithoutSeparator(h, '\n');
    }
  }

  /** With no line break in ids or messages and no `(` in ids, the k-th line
      of the summary's failure list reads back as the id and the message of
      the k-th failure. */
  lemma SummaryNamesEachFailure(successCount: nat, failures: seq<Failed<string, Fault>>)
    requires forall k :: 0 <= k < |failures| ==>
               '\n' !in failures[k].item && '(' !in failures[k].item && '\n' !in failures[k].error.message
    ensures ReadSummary(Summary(successCount, failures)).Some?
    ensures var lines := ReadSummary(Summary(successCount, failures)).value.2;
            && |lines| == |failures|
            && forall k :: 0 <= k < |failures| ==>
                 ReadFailureLine(lines[k]) == Some((failures[k].item, failures[k].error.message))
  {
    SummaryReadsBack(successCount, failures);
    var lines := MapSeq(FailureLine, failures);
    forall k | 0 <= k < |failures|
      ensures ReadFailureLine(lines[k]) == Some((failures[k].item, failures[k].error.message))
    {
      FailureLineReadsBack(failures[k]);
    }
  }

  lemma SplitWithFailureList(h: string, body: string)
    requires '\n' !in h
    ensures Split(h + "\n" + FailedIdsLine + "\n" + body, '\n') == [h, FailedIdsLine] + Split(body, '\n')
  {
    var t := FailedIdsLine + "\n" + body;
    assert h + "\n" + FailedIdsLine + "\n" + body == h + ['\n'] + t;
    SplitAtFirstSeparator(h, '\n', t);
    assert t == FailedIdsLine + ['\n'] + body;
    SplitAtFirstSeparator(FailedIdsLine, '\n', body);
  }

  lemma ReadSummaryOfLines(text: string, h: string, lines: seq<string>)
    requires |lines| >= 1
    requires Split(text, '\n') == [h, FailedIdsLine] + lines
    requires ReadHeader(h).Some?
    ensures ReadSummary(text) == Some((ReadHeader(h).value.0, ReadHeader(h).value.1, lines))
  {
    var parts := Split(text, '\n');
    assert parts[0] == h && parts[1] == FailedIdsLine && parts[2..] == lines;
  }

  /** The reply text of the `CallToolRequest` handler: `delete_email` deletes
      one message directly; `batch_delete_emails` runs the batch engine with
      the deletion bulk operation and returns the summary; any other name is
      an unknown tool; every raised error becomes an `Error:` reply. A
      negative `batchSize` with at least one id is rejected (see
      `CheckedBatchSize`). */
  function Dispatch(gw: Gateway, req: Request): (reply: string)
    ensures StartsWith(reply, "Unknown tool: ") <==> req.name != DeleteTool && req.name != BatchTool
    ensures req.name != DeleteTool && req.name != BatchTool ==> reply == "Unknown tool: " + req.name
    ensures req.name == DeleteTool ==>
              (StartsWith(reply, "Error: ") <==>
                 ParseDelete(req.args).Failure? || gw(ParseDelete(req.args).value.messageId).Failure?)
    ensures req.name == BatchTool ==>
              (StartsWith(reply, "Error: ") <==>
                 ParseBatch(req.args).Failure? || !Runnable(ParseBatch(req.args).value))
  {
    if req.name == DeleteTool then
      match ParseDelete(req.args)
      case Failure(f) => ErrorReply(f)
      case Success(v) =>
        match gw(v.messageId)
        case Failure(f) => ErrorReply(f)
        case Success(_) =>
          var r := "Deleted message " + v.messageId;
          OtherFirstCharacter(r, "Error: ");
          r
    else if req.name == BatchTool then
      match ParseBatch(req.args)
      case Failure(f) => ErrorReply(f)
      case Success(v) =>
        match CheckedBatchSize(v.batchSize, |v.messageIds|)
        case Failure(f) => ErrorReply(f)
        case Success(_) =>
        var x := BatchRun(gw, v);
        var r := Summary(|x.report.successes|, x.report.failures);
        assert r[0] == 'B';
        OtherFirstCharacter(r, "Error: ");
        OtherFirstCharacter(r, "Unknown tool: ");
        r
    else
      "Unknown tool: " + req.name
  }

  /** The reply for a raised error, `Error: ${err?.message || String(err)}`:
      never mistaken for an unknown-tool reply. */
  function ErrorReply(f: Fault): (r: string)
    ensures StartsWith(r, "Error: ") && !StartsWith(r, "Unknown tool: ")
    ensures f.message != "" ==> r == "Error: " + f.message
    ensures f.message == "" ==> r == "Error: " + f.name
  {
    var r := "Error: " + ErrorText(f);
    OtherFirstCharacter(r, "Unknown tool: ");
    r
  }
}

=== FILE: wrappers.dfy ===
/** Failure-carrying datatypes used in place of the source's thrown exceptions
    and `undefined` values. */
module Wrappers {

  /** A value that may be absent. */
  datatype Option<T> = None | Some(value: T)

  /** The outcome of an operation that either yields a value or raises an error. */
  datatype Result<R, E> = Success(value: R) | Failure(error: E)

}
